=== FILE: README.md ===
# Markdown Image Cleaner — a Dafny model of its core

Markdown Image Cleaner is a small desktop tool for one Markdown document and
its image folder. It works in these steps:

- It reads the document and collects every image reference. These are the
  Markdown `![alt](target)` images, then the HTML `<img src=...>` tags.
- It resolves each reference next to the document.
- It walks the image folder and catalogues every image file. A file is
  marked *used* when some reference resolves to it.
- It offers to delete the unused files.
- It can also give the used files the names `1.ext`, `2.ext`, … in catalog
  order. It copies them under these names and writes a rewritten copy of the
  document, `{stem}_new.md`.

This project models the pure logic of `src/app.rs`. The state is `App`: the
chosen document, the chosen image folder and the catalog. The
modelled messages are `SelectMdFile`, `SelectImageDir`, `FreshImages`,
`RemoveImages` and `RenameImages`. The helpers behind them are
`find_md_images`, `find_dir_images`, `fresh_images`, `find_remove_images`,
`get_description` and `rename_images`.

The model is organised in these modules:

- `Strings`: the parts of Rust's `str` the program uses:
  - the substring search (`IndexOf`) that `replace` and `split` perform;
  - `replace`, with its empty-pattern case;
  - `split` and `join`;
  - `to_lowercase`.
- `Decimal`: `usize` formatting.
- `Paths`: Windows `Path::parent`, `file_name`, `extension` and `join`, with `\` as separator.
- `Seqs`: order-preserving selection, plus the mapped reversal that `iter().rev()` gives.
- `MarkdownImages`: the Markdown pattern `!\[.*?\]\((.*?)\)`, in two forms:
  - a hand-written scanner;
  - a declarative account of `captures_iter`: successive, leftmost, lazy matches, with `.` never crossing a line break.

  The scanner is proved to meet the account, and the account fixes the matches uniquely.
- `Extract`: `find_md_images`.
- `DirScan`: the extension filter of `find_dir_images`.
- `Catalog`: `fresh_images`, `find_remove_images` and `get_description`.
- `Rename`: the numbering of used images and `rename_images`.
- `Session`: `App`, the disk the program reads (`Disk`) and the steps `update` performs.

Each dialog's answer is an argument. The disk is a value with three function fields:

- whether a path is an existing directory;
- the files under a directory;
- the text of a file.

Deletions are modelled as a new `Disk`. Copies are returned as a list of
`CopyOp` values.

Choosing a document refreshes the catalog only when one of its candidate
folders exists. Otherwise the folder and the catalog of the previous
document are kept under the new one, and a later removal or rename acts on
that catalog. The removal lemmas therefore assume a freshly built catalog.

A reference usually has a folder part, as in `doc.assets/img.png`. The new
reference text replaces every occurrence of the file name inside the whole
reference text:

- When the file name first occurs at the end, the folder part is kept and
  only the name becomes `{index}.{ext}` (`Rename.NewNameOfPrefixed`).
- When the folder part itself contains the file name, it is rewritten there
  as well (`Rename.NewNameInFolder`).

Three further behaviours of the code are modelled as written and stated as lemmas:

- A reference written `./name.png` resolves to `dir\.\name.png`. Paths are
  compared as strings, so this never equals the walked path `dir\name.png`,
  and such an image counts as unused. One might expect such a reference to
  match; the code does not, and `Extract.DotSlashTargetKeepsDot` states the
  difference.
- The rename rewrites the document by plain text replacement, so it has no
  general round trip. Take one reference text inside another: `a.png` is
  inside `ba.png`. The later image's step also rewrites the earlier image's
  reference. The reference to the first image then never gets its new name.
  `Rename.NestedReferenceRewritten` shows this on a concrete document.
- Renaming does not protect files whose names are already numbers. Take a
  folder holding the used images `2.png` and `x.png`, numbered 1 and 2.
  Going from the highest number down does not avoid overwriting, and the
  originals are not left untouched:
  - The first copy writes `x.png` onto `2.png`. That overwrites the original
    `2.png` before it is copied to `1.png`.
  - The rewrite first turns `x.png` into `2.png`, then every `2.png` into
    `1.png`. Both references end up naming `1.png`.

  `Rename.CopyOverwritesOriginal` and `Rename.ReferencesMerged` show both
  effects. Any folder that mixes numbered names with other names can be
  affected.

## Model

| member | source | states |
|---|---|---|
| Strings.IndexOf | src/app.rs:370-371 | the result is the first occurrence of the pattern, and it is absent exactly when the pattern does not occur |
| Strings.ReplaceIsSplitJoin | src/app.rs:370-371 | `replace` with a non-empty pattern equals splitting at the leftmost non-overlapping occurrences and joining with the replacement |
| Strings.ReplaceByItself | src/app.rs:364-371 | replacing any pattern, including the empty one, by itself leaves the text unchanged |
| Strings.ReplaceAbsent | src/app.rs:370-371 | a text without the pattern is returned unchanged |
| Strings.SplitJoinRoundTrip | src/app.rs:381-382 | joining the pieces of a split with the same separator gives back the text |
| Strings.SplitPiecesAvoid | src/app.rs:381-382 | no piece of a split contains the separator |
| Strings.SplitPiecesAreLeftmost | src/app.rs:381-382 | each piece ends at the first occurrence of the separator after it |
| Decimal.Format | src/app.rs:362 | the index is rendered as a non-empty digit string with no leading zero unless it is 0 |
| Decimal.ParseFormat | src/app.rs:362 | reading the rendered digits back gives the index |
| Decimal.FormatInjective | src/app.rs:362 | different indices render as different texts |
| Paths.Extension | src/app.rs:301 | an extension exists exactly when the name is not ".." and has a dot after its first character; it is the dot-free text after the last dot |
| Paths.LastIndex | src/app.rs:359-361 | the result is the last position of the character, and it is absent exactly when the character does not occur |
| Paths.ParentAndFileName | src/app.rs:359-363 | a path is its parent, a separator and its file name, and the file name has no separator |
| Paths.JoinInverse | src/app.rs:363 | joining a bare name onto a directory gives back that name as file name and that directory as parent |
| MarkdownImages.CloseFrom | src/app.rs:268 | the lazy target group ends at the first ')' on the same line, or there is none |
| MarkdownImages.BracketFrom | src/app.rs:268 | backtracking over the alt text finds the preferred "](" … ")" after a position, or proves there is none |
| MarkdownImages.MatchAt | src/app.rs:268 | the match at a position is the one the lazy groups prefer, and it is absent only when no match starts there |
| MarkdownImages.ScanFrom | src/app.rs:268-274 | the scanner yields successive leftmost non-overlapping preferred matches, and none after the last |
| MarkdownImages.SuccessiveUnique | src/app.rs:271-272 | the match iteration is fully determined by the text |
| MarkdownImages.Targets | src/app.rs:271-276 | the captured targets are those of the scanned matches, in order |
| MarkdownImages.TargetShape | src/app.rs:268 | a captured target never contains ')' or a line break |
| MarkdownImages.ScanPreferred | src/app.rs:271-272 | every element of a match iteration is the preferred match at its start |
| Extract.FindMdImages | src/app.rs:265-288 | the references are the Markdown targets and then the HTML captures, with raw text kept, each resolved next to the document |
| Extract.ResolveAll | src/app.rs:271-285 | the captures of both patterns, chained in order, are each paired with their resolved path |
| Extract.NormalizeHasNoSlash | src/app.rs:280 | after normalisation a target holds no forward slash |
| Extract.DotSlashTargetKeepsDot | src/app.rs:277-280 | a "./name" target resolves to "dir\.\name", never to the walked path "dir\name" |
| DirScan.FindDirImages | src/app.rs:291-309 | the result keeps exactly the listed files whose lower-cased extension is png, jpg, jpeg, gif or webp, in listing order |
| Catalog.LookupTable | src/app.rs:322-325 | the map's keys are the resolved paths, and each path maps to the raw text of its last reference |
| Catalog.FreshImages | src/app.rs:326-334 | there is one entry per walked file, in order; it is used exactly when a reference resolves to it, and the raw text is that of the last such reference |
| Catalog.UsedEntriesResolve | src/app.rs:322-333 | a used entry's raw text resolves, next to the document, to the entry's own path |
| Catalog.LastMatching | src/app.rs:322-325 | a resolved path has a last reference resolving to it |
| Catalog.FindRemoveImages | src/app.rs:337-345 | the result is the paths of exactly the unused entries, in catalog order |
| Catalog.RemovalMembership | src/app.rs:337-345 | a path is offered for removal exactly when an unused entry carries it, and nothing is offered exactly when every entry is used |
| Catalog.UsedPlusUnused | src/app.rs:129-133 | the used entries and the removal list together account for the whole catalog |
| Catalog.Preview | src/app.rs:347-353 | up to ten lines are shown whole; longer lists show the first five, "..." and the last five |
| Catalog.GetDescription | src/app.rs:347-353 | the description is the preview lines joined with line breaks |
| Seqs.PositionsPartition | src/app.rs:129-133 | the accepted and the rejected positions add up to the length |
| Seqs.FilterMembership | src/app.rs:129-133 | an element survives the filter exactly when it is present and accepted |
| Rename.NumberUsed | src/app.rs:129-147 | the used entries, in catalog order, get the numbers 1, 2, … |
| Rename.NewFileNameExtension | src/app.rs:360-362 | the new name "{index}.{ext}" has exactly the old extension |
| Rename.NewFileNamesDistinct | src/app.rs:362 | different indices give different new names, whatever the extensions |
| Rename.RenameImages | src/app.rs:355-390 | the copies are made last image first, one per image; the text is rewritten with each image's step applied from last to first; the new document path is returned |
| Rename.CopiesDescend | src/app.rs:143-147 | numbered from the catalog, the copies carry strictly decreasing numbers ending in 1 |
| Rename.CopiesNumbered | src/app.rs:143-147 | the catalog's used images are copied under the numbers n, …, 1, in that order |
| Rename.RewriteUntouched | src/app.rs:370-371 | a document holding none of the reference texts comes out unchanged |
| Rename.NestedReferenceRewritten | src/app.rs:358-371 | the images d\ba.png and d\a.png, referenced as "ba.png" and "a.png" and numbered 1 and 2, get the new reference texts "1.png" and "2.png"; yet the whole rewrite of the document "![](ba.png)![](a.png)" for the two images (the second image's step first) never contains "1.png" |
| Rename.CopyOverwritesOriginal | src/app.rs:358-369 | with the used images d\2.png and d\x.png numbered 1 and 2, the first copy made (for number 2) targets d\2.png, which is the source of the second copy |
| Rename.ReferencesMerged | src/app.rs:358-371 | for the same images, the document "![](2.png)![](x.png)" is rewritten to "![](1.png)![](1.png)": both references name 1.png |
| Rename.NewNameOfPrefixed | src/app.rs:359-368 | an image "{dir}\{name}" referenced as "{prefix}{name}", where the file name first occurs at the end, gets the new reference text "{prefix}{index}.{extension}": the folder part is kept |
| Rename.NewNameInFolder | src/app.rs:359-368 | when the file name first occurs at position i inside the folder part of the reference text, the new reference text is the folder part up to i followed by the new file name: the folder part is rewritten too |
| Rename.NewNameOf | src/app.rs:359-368 | an image "{dir}\{name}" referenced by its bare file name "{name}" gets exactly its new file name "{index}.{extension}" as new reference text |
| Rename.StemShape | src/app.rs:376-383 | the stem is the file name up to its first dot, and holds no dot |
| Rename.NewMdPathShape | src/app.rs:375-390 | the new document is placed beside the original and named "{stem}_new.md" |
| Session.Refresh | src/app.rs:311-335 | the paths are kept; the catalog lists the walked image files in order; an entry is used exactly when a reference resolves to it; a used entry's raw text resolves to its path |
| Session.ImageDirCandidates | src/app.rs:57-60 | the first candidate is the document path with every ".md" removed (split at ".md" and joined with nothing), and the second is the first with ".assets" appended |
| Session.CandidatesOfPlainName | src/app.rs:56-60 | for "{stem}.md" with no other ".md", the candidates are the stem and the stem with ".assets" |
| Session.FirstExisting | src/app.rs:61-69 | the first candidate that is an existing directory is chosen, and none exactly when no candidate is an existing directory |
| Session.SelectMdFile | src/app.rs:47-71 | the document is remembered; the first existing candidate is chosen and the catalog refreshed; with no candidate the folder and catalog stay as they were; a well-formed state stays well formed. Only the chosen candidate must be walkable |
| Session.SelectImageDir | src/app.rs:72-81 | the folder is chosen, the document kept, and the catalog is the full refresh for that folder, so every entry is a listed image file under it |
| Session.InitialWellFormed | src/app.rs:33-39 | the start state, with no document, no folder and no images, is well formed |
| Session.RefreshedFromListing | src/app.rs:291-313 | every entry of a refreshed catalog is an image file under the chosen folder |
| Session.DirImagesListed | src/app.rs:291-309 | the scanned image files are listed under the folder and pass the extension filter |
| Session.RemoveFiles | src/app.rs:108-110 | after deletion a file is listed exactly when it was listed before and is not among the deleted |
| Session.RemoveKeepsListable | src/app.rs:108-110 | deleting files keeps every directory walkable |
| Session.RemoveImages | src/app.rs:85-123 | with nothing to remove, or no confirmation, nothing changes; otherwise the unused files are deleted and the catalog refreshed; a well-formed state stays well formed. The folder must be walkable only when something is deleted |
| Session.RemovalLeavesUsed | src/app.rs:85-123 | from a freshly built catalog, after a confirmed removal the catalog lists exactly the formerly used paths, and nothing is left to remove |
| Session.AllUsedListsUsed | src/app.rs:86-95 | when nothing is offered for removal, every entry is used |
| Session.RemovalRefreshes | src/app.rs:108-121 | from a freshly built catalog, a removal that deletes something leaves, after refreshing, exactly the used paths, each still used |
| Session.RemovalKeepsUsed | src/app.rs:108-121 | keeping the walked files minus the unused ones leaves exactly the used paths |
| Session.RefreshPaths | src/app.rs:311-335 | a refreshed catalog lists the walked image files, and uses exactly the ones some reference resolves to |
| Session.KeptImages | src/app.rs:108-110 | after deletion the image files under a folder are the earlier ones not deleted |
| Session.RenameUsed | src/app.rs:124-185 | renaming happens exactly when it is confirmed and some entry is used; each used file is copied to "{index}.{extension}" beside itself, last number first, with numbers n, …, 1; the document is rewritten and its new path returned |
| Session.NumberedUsed | src/app.rs:129-147 | in a well-formed catalog the numbered images are exactly the used ones, each with a reference text and an extension |

## Left out

- The window, the view, the title and the file and message dialogs are not modelled. Each dialog's answer (the picked path, the confirmation) is an argument.
- File I/O is not modelled. Reading a file, the recursive directory walk and the directory test come from the `Disk` argument. Deletion produces a new `Disk`. Copies are returned as `CopyOp` values. The write of the new document (src/app.rs:391) is left out; the rewritten text and its path are returned.
- The HTML `<img src>` pattern (src/app.rs:269) is not modelled. It is a function argument that gives its captures in order.
- `to_lowercase` is modelled for ASCII letters only. The model has no Unicode case mapping.
- Paths are modelled with `\` as the only separator and without normalisation. Two consequences:
  - A rooted or absolute target is appended to the document's folder. `Path::join` would instead replace the folder with it, or, for a rooted target such as "/img/a.png" (normalised to "\img\a.png"), keep only the folder's drive prefix.
  - Windows drive and UNC prefixes, and `/` as a separator, are not modelled.
- `usize` indices are unbounded integers. An index never comes near the `usize` limit.
- Every `unwrap` on a walked file's extension, a used entry's reference text or the document path became a precondition (`Listable`, `Renamable`, `WellFormed`). The model does not describe those panics. The I/O calls (`read_to_string`, `read_dir`, `remove_file`, `copy`, `write`) are assumed to succeed, so their panics are not modelled either.
- The preview lines of the rename confirmation (src/app.rs:149-157) are not modelled, and neither are the messages' formatting. Only `get_description` itself is modelled.
- `src/main.rs` (window settings and start-up) is not part of this model.
- Paths.ExtensionOf: gives "" for a name with no extension, where the program would panic (src/app.rs:360). `Rename.CopyFor` and `Rename.NewRawPath`, and through them `Rename.RewriteStep` and `Rename.RewriteFrom`, are total and then use a name "{index}."; only `Rename.RenameImages` (through `Renamable`) and `Session.RenameUsed` (through `WellFormed`) exclude that case.
- Rename.RewriteStep: leaves the document alone for an image without a reference text, where the program would panic. `Rename.RenameImages` and `Session.RenameUsed` exclude that case by their preconditions.
- Strings.Interleave: its contract states only that the text grows when the replacement is non-empty. The full interleaving is stated by its definition alone.
- Rename.RenameImages: states no round trip between the old and new reference texts, because the code does not keep one (see `Rename.NestedReferenceRewritten`). It also does not promise that the originals survive the copies, or that distinct references stay distinct after the rewrite. A folder whose names are already numbers breaks both (see `Rename.CopyOverwritesOriginal` and `Rename.ReferencesMerged`).

=== FILE: catalog.dfy ===
/** The catalog: every image file found on disk, marked used when some
    reference of the document resolves to it (`fresh_images`), the list of
    unused files offered for removal (`find_remove_images`) and the
    shortened listing shown in confirmations (`get_description`). */
module Catalog {
  import opened Wrappers
  import Strings
  import Seqs
  import Extract

  /** One file on disk; `rawPath` is the reference text that resolved to it. */
  datatype Image = Image(absPath: string, rawPath: Option<string>, used: bool)

  predicate IsUsed(im: Image)
  {
    im.used
  }

  predicate IsUnused(im: Image)
  {
    !im.used
  }

  /** `used` is set exactly when a reference text is recorded. */
  predicate Consistent(images: seq<Image>)
  {
    forall i :: 0 <= i < |images| ==> (images[i].used <==> images[i].rawPath.Some?)
  }

  /** No later reference resolves to the same path as reference `k`. */
  predicate LastFor(refs: seq<Extract.Reference>, k: int)
    requires 0 <= k < |refs|
  {
    forall j :: k < j < |refs| ==> refs[j].absPath != refs[k].absPath
  }

  /** The paths the references resolve to. */
  function ResolvedPaths(refs: seq<Extract.Reference>): set<string>
  {
    set k | 0 <= k < |refs| :: refs[k].absPath
  }

  /** The map from resolved path to reference text, built by inserting the
      references in order, so that a later duplicate replaces an earlier one. */
  function LookupTable(refs: seq<Extract.Reference>): (m: map<string, string>)
    ensures m.Keys == ResolvedPaths(refs)
    ensures forall k :: 0 <= k < |refs| && LastFor(refs, k) ==>
              refs[k].absPath in m && m[refs[k].absPath] == refs[k].rawText
    decreases |refs|
  {
    if |refs| == 0 then map[]
    else
      var n := |refs| - 1;
      var front := LookupTable(refs[..n]);
      LookupTableStep(refs, refs[..n], front);
      front[refs[n].absPath := refs[n].rawText]
  }

  /** Inserting the last reference into the table of the earlier ones. */
  lemma LookupTableStep(refs: seq<Extract.Reference>, init: seq<Extract.Reference>, front: map<string, string>)
    requires |refs| > 0 && init == refs[..|refs| - 1]
    requires front.Keys == ResolvedPaths(init)
    requires forall k :: 0 <= k < |init| && LastFor(init, k) ==>
               init[k].absPath in front && front[init[k].absPath] == init[k].rawText
    ensures front[refs[|refs| - 1].absPath := refs[|refs| - 1].rawText].Keys == ResolvedPaths(refs)
    ensures forall k :: 0 <= k < |refs| && LastFor(refs, k) ==>
              && refs[k].absPath in front[refs[|refs| - 1].absPath := refs[|refs| - 1].rawText]
              && front[refs[|refs| - 1].absPath := refs[|refs| - 1].rawText][refs[k].absPath] == refs[k].rawText
  {
    var n := |refs| - 1;
    var last := refs[n];
    var m := front[last.absPath := last.rawText];
    assert forall j :: 0 <= j < n ==> refs[j] == init[j];
    assert ResolvedPaths(refs) == ResolvedPaths(init) + {last.absPath};
    forall k | 0 <= k < |refs| && LastFor(refs, k)
      ensures refs[k].absPath in m && m[refs[k].absPath] == refs[k].rawText
    {
      if k < n {
        assert refs[n].absPath != refs[k].absPath;
        assert LastFor(init, k);
      }
    }
  }

  /** One catalog entry per scanned file, in scan order. */
  function FreshImages(dirImages: seq<string>, refs: seq<Extract.Reference>): (images: seq<Image>)
    ensures |images| == |dirImages|
    ensures forall i :: 0 <= i < |images| ==> images[i].absPath == dirImages[i]
    ensures Consistent(images)
    ensures forall i :: 0 <= i < |images| ==>
              (images[i].used <==> dirImages[i] in ResolvedPaths(refs))
    ensures forall i, k :: 0 <= i < |images| && 0 <= k < |refs| && refs[k].absPath == dirImages[i] && LastFor(refs, k) ==>
              images[i].rawPath == Some(refs[k].rawText)
  {
    var table := LookupTable(refs);
    seq(|dirImages|, i requires 0 <= i < |dirImages| =>
      var p := dirImages[i];
      Image(p, if p in table then Some(table[p]) else None, p in table))
  }

  /** The paths of the unused entries, in catalog order. */
  function FindRemoveImages(images: seq<Image>): (r: seq<string>)
    ensures |r| == |Seqs.Positions(images, IsUnused)|
    ensures forall j :: 0 <= j < |r| ==> r[j] == images[Seqs.Positions(images, IsUnused)[j]].absPath
    decreases |images|
  {
    if |images| == 0 then []
    else
      var n := |images| - 1;
      var front := FindRemoveImages(images[..n]);
      if images[n].used then front else front + [images[n].absPath]
  }

  /** A path is offered for removal exactly when an unused entry carries it;
      when every entry is used nothing is offered. */
  lemma RemovalMembership(images: seq<Image>)
    ensures forall p :: p in FindRemoveImages(images) <==>
              exists i :: 0 <= i < |images| && images[i].absPath == p && !images[i].used
    ensures |FindRemoveImages(images)| == 0 <==> forall i :: 0 <= i < |images| ==> images[i].used
  {
    var r := FindRemoveImages(images);
    var idx := Seqs.Positions(images, IsUnused);
    Seqs.PositionsEmpty(images, IsUnused);
    forall p | p in r
      ensures exists i :: 0 <= i < |images| && images[i].absPath == p && !images[i].used
    {
      var j :| 0 <= j < |r| && r[j] == p;
      assert IsUnused(images[idx[j]]);
    }
    forall p | exists i :: 0 <= i < |images| && images[i].absPath == p && !images[i].used
      ensures p in r
    {
      var i :| 0 <= i < |images| && images[i].absPath == p && !images[i].used;
      assert IsUnused(images[i]);
      assert i in idx;
      var j :| 0 <= j < |idx| && idx[j] == i;
      assert r[j] == p;
    }
  }

  /** Used and unused entries together account for the whole catalog. */
  lemma UsedPlusUnused(images: seq<Image>)
    ensures |Seqs.Positions(images, IsUsed)| + |FindRemoveImages(images)| == |images|
  {
    Seqs.PositionsPartition(images, IsUsed);
    assert Seqs.Positions(images, x => !IsUsed(x)) == Seqs.Positions(images, IsUnused) by {
      SamePositions(images, x => !IsUsed(x), IsUnused);
    }
  }

  lemma {:induction false} SamePositions<T>(s: seq<T>, f: T -> bool, g: T -> bool)
    requires forall x :: f(x) == g(x)
    ensures Seqs.Positions(s, f) == Seqs.Positions(s, g)
    decreases |s|
  {
    if |s| > 0 {
      SamePositions(s[..|s| - 1], f, g);
    }
  }

  /** A used entry's reference text resolves, next to the document, to
      exactly the entry's path, when the references come from extraction. */
  lemma UsedEntriesResolve(dirImages: seq<string>, refs: seq<Extract.Reference>, dir: string)
    requires forall k :: 0 <= k < |refs| ==> refs[k].absPath == Extract.Resolve(dir, refs[k].rawText)
    ensures forall i :: 0 <= i < |dirImages| && FreshImages(dirImages, refs)[i].used ==>
              Extract.Resolve(dir, FreshImages(dirImages, refs)[i].rawPath.value) == dirImages[i]
  {
    var images := FreshImages(dirImages, refs);
    forall i | 0 <= i < |dirImages| && images[i].used
      ensures Extract.Resolve(dir, images[i].rawPath.value) == dirImages[i]
    {
      var k := LastMatching(refs, dirImages[i]);
      assert images[i].rawPath == Some(refs[k].rawText);
    }
  }

  /** The last reference resolving to `p`, when one does. */
  lemma LastMatching(refs: seq<Extract.Reference>, p: string) returns (k: nat)
    requires p in ResolvedPaths(refs)
    ensures k < |refs| && refs[k].absPath == p && LastFor(refs, k)
    decreases |refs|
  {
    var n := |refs| - 1;
    if refs[n].absPath == p {
      k := n;
    } else {
      var k0 :| 0 <= k0 < |refs| && refs[k0].absPath == p;
      assert refs[..n][k0] == refs[k0];
      assert p in ResolvedPaths(refs[..n]);
      k := LastMatching(refs[..n], p);
      assert refs[..n][k] == refs[k];
    }
  }

  /** What a confirmation lists: everything when there are at most ten
      lines, otherwise the first five, a "..." line and the last five. */
  function Preview(content: seq<string>): (r: seq<string>)
    ensures |content| <= 10 ==> r == content
    ensures |content| > 10 ==> |r| == 11 && r[5] == "..."
    ensures |content| > 10 ==> forall j :: 0 <= j < 5 ==> r[j] == content[j]
    ensures |content| > 10 ==> forall j :: 6 <= j < 11 ==> r[j] == content[|content| - 11 + j]
  {
    if |content| > 10 then content[..5] + ["..."] + content[|content| - 5..] else content
  }

  /** `get_description`: the preview lines joined with line breaks. */
  function GetDescription(content: seq<string>): (r: string)
    ensures r == Strings.Join(Preview(content), "\n")
  {
    if |content| > 10 then
      var n := |content|;
      Strings.JoinAppend(content[..5], ["..."] + content[n - 5..], "\n");
      Strings.JoinAppend(["..."], content[n - 5..], "\n");
      assert content[..5] + ["..."] + content[n - 5..] == content[..5] + (["..."] + content[n - 5..]);
      Strings.Join(content[..5], "\n") + "\n...\n" + Strings.Join(content[n - 5..], "\n")
    else
      Strings.Join(content, "\n")
  }
}

=== FILE: decimal.dfy ===
/** Decimal rendering of an index, as `format!("{}", idx)` does for `usize`. */
module Decimal {

  predicate IsDigit(c: char)
  {
    '0' <= c <= '9'
  }

  predicate AllDigits(s: string)
  {
    forall i :: 0 <= i < |s| ==> IsDigit(s[i])
  }

  function DigitChar(d: nat): (c: char)
    requires d < 10
    ensures IsDigit(c) && c as int - '0' as int == d
  {
    ('0' as int + d) as char
  }

  /** The decimal text of `n`: digits only, no leading zero. */
  function Format(n: nat): (r: string)
    ensures |r| > 0 && AllDigits(r)
    ensures r[0] == '0' <==> n == 0
    decreases n
  {
    if n < 10 then [DigitChar(n)] else Format(n / 10) + [DigitChar(n % 10)]
  }

  /** The number a string of decimal digits denotes. */
  function Parse(s: string): nat
    requires AllDigits(s)
    decreases |s|
  {
    if |s| == 0 then 0
    else Parse(s[..|s| - 1]) * 10 + (s[|s| - 1] as int - '0' as int)
  }

  /** Parsing the rendering gives the number back. */
  lemma {:induction false} ParseFormat(n: nat)
    ensures Parse(Format(n)) == n
    decreases n
  {
    if n >= 10 {
      ParseFormat(n / 10);
      var r := Format(n);
      assert r[..|r| - 1] == Format(n / 10);
    }
  }

  /** Distinct numbers render differently. */
  lemma FormatInjective(m: nat, n: nat)
    requires Format(m) == Format(n)
    ensures m == n
  {
    ParseFormat(m);
    ParseFormat(n);
  }
}

=== FILE: dirscan.dfy ===
/** The extension filter of `find_dir_images`. The recursive directory
    walk itself is I/O: its output, every file under the image directory in
    traversal order, is the input here. */
module DirScan {
  import Strings
  import Paths
  import Seqs

  /** The allow-list, compared against the lower-cased extension. */
  const ImageExtensions: seq<string> := ["png", "jpg", "jpeg", "gif", "webp"]

  predicate IsImageFile(p: string)
  {
    Paths.HasExtension(p) && Strings.ToLower(Paths.ExtensionOf(p)) in ImageExtensions
  }

  /** Every listed file has an extension: the program unwraps it. */
  predicate AllHaveExtensions(files: seq<string>)
  {
    forall k :: 0 <= k < |files| ==> Paths.HasExtension(files[k])
  }

  /** The image files of a listing, in listing order: a file is kept
      exactly when it is listed and its extension is allowed. */
  function FindDirImages(files: seq<string>): (r: seq<string>)
    requires AllHaveExtensions(files)
    ensures |r| == |Seqs.Positions(files, IsImageFile)|
    ensures forall j :: 0 <= j < |r| ==> r[j] == files[Seqs.Positions(files, IsImageFile)[j]]
    ensures forall p :: p in r <==> p in files && IsImageFile(p)
  {
    Seqs.FilterMembership(files, IsImageFile);
    Seqs.Filter(files, IsImageFile)
  }
}

=== FILE: extract.dfy ===
/** Reference extraction (`find_md_images`): every markdown image target,
    then every HTML `<img src>` value, each paired with the absolute path it
    resolves to next to the document. The HTML pattern is a parameter: the
    caller supplies the captures of `<img[^>]*?src\s*=\s*["']?([^"'>]+)[^>]*>`
    in appearance order. */
module Extract {
  import opened Wrappers
  import Strings
  import Paths
  import MarkdownImages

  /** One reference: the resolved path and the target exactly as written. */
  datatype Reference = Reference(absPath: string, rawText: string)

  /** Forward slashes of a target become the Windows separator. */
  function Normalize(target: string): string
  {
    Strings.Replace(target, "/", "\\")
  }

  /** The absolute path a captured target names: the document's directory
      joined with the normalised target, as plain strings. */
  function Resolve(dir: string, target: string): string
  {
    Paths.Join(dir, Normalize(target))
  }

  /** All references of the document at `mdPath` whose text is `text`. */
  function FindMdImages(text: string, mdPath: string, html: string -> seq<string>): (refs: seq<Reference>)
    ensures |refs| == |MarkdownImages.Targets(text)| + |html(text)|
    ensures forall k :: 0 <= k < |MarkdownImages.Targets(text)| ==>
              refs[k].rawText == MarkdownImages.Targets(text)[k]
    ensures forall k :: 0 <= k < |html(text)| ==>
              refs[|MarkdownImages.Targets(text)| + k].rawText == html(text)[k]
    ensures forall k :: 0 <= k < |refs| ==>
              refs[k].absPath == Resolve(Paths.Parent(mdPath), refs[k].rawText)
  {
    ResolveAll(Paths.Parent(mdPath), MarkdownImages.Targets(text), html(text))
  }

  /** The targets `first` and then `second`, each paired with the path it
      names under `dir`. */
  function ResolveAll(dir: string, first: seq<string>, second: seq<string>): (refs: seq<Reference>)
    ensures |refs| == |first| + |second|
    ensures forall k :: 0 <= k < |first| ==> refs[k].rawText == first[k]
    ensures forall k :: 0 <= k < |second| ==> refs[|first| + k].rawText == second[k]
    ensures forall k :: 0 <= k < |refs| ==> refs[k].absPath == Resolve(dir, refs[k].rawText)
  {
    var captures := first + second;
    seq(|captures|, k requires 0 <= k < |captures| => Reference(Resolve(dir, captures[k]), captures[k]))
  }

  /** After normalisation no forward slash is left. */
  lemma NormalizeHasNoSlash(target: string)
    ensures '/' !in Normalize(target)
  {
    Strings.ReplaceIsSplitJoin(target, "/", "\\");
    var pieces := Strings.Split(target, "/");
    Strings.SplitPiecesAvoid(target, "/");
    forall k | 0 <= k < |pieces|
      ensures '/' !in pieces[k]
    {
      if '/' in pieces[k] {
        var i :| 0 <= i < |pieces[k]| && pieces[k][i] == '/';
        assert Strings.OccursAt(pieces[k], "/", i);
      }
    }
    JoinAvoids(pieces, "\\", '/');
  }

  /** Joining texts free of `c` with a separator free of `c` gives a text free of `c`. */
  lemma {:induction false} JoinAvoids(parts: seq<string>, sep: string, c: char)
    requires forall k :: 0 <= k < |parts| ==> c !in parts[k]
    requires c !in sep
    ensures c !in Strings.Join(parts, sep)
    decreases |parts|
  {
    if |parts| > 1 {
      JoinAvoids(parts[1..], sep, c);
    }
  }

  /** A target written with a leading "./" resolves to a path that keeps the
      "." component, so it is never the plain joined path of the same name. */
  lemma DotSlashTargetKeepsDot(dir: string, name: string)
    requires '/' !in name
    ensures Resolve(dir, "./" + name) == Paths.Join(dir, ".\\" + name)
    ensures Resolve(dir, "./" + name) != Paths.Join(dir, name)
  {
    var t := "./" + name;
    assert Strings.OccursAt(t, "/", 1);
    assert t[0..1][0] == '.';
    assert !Strings.OccursAt(t, "/", 0);
    assert Strings.Contains(t, "/");
    var first := Strings.IndexOf(t, "/");
    assert first.Some? && first.value <= 1;
    assert first == Some(1);
    assert t[2..] == name;
    forall i | 0 <= i < |name|
      ensures !Strings.OccursAt(name, "/", i)
    {
      assert name[i..i + 1][0] == name[i];
    }
    Strings.ReplaceAbsent(name, "/", "\\");
    assert Normalize(t) == ".\\" + name;
  }
}

=== FILE: markdown.dfy ===
/** The markdown image pattern `!\[.*?\]\((.*?)\)` of `find_md_images`,
    as a hand-written left-to-right scanner, together with a declarative
    account of what the regex engine's `captures_iter` yields for it:
    successive, non-overlapping, leftmost matches, each one the first the
    lazy groups reach (shortest alt text, then shortest target), where `.`
    never crosses a line break. */
module MarkdownImages {
  import opened Wrappers

  /** No line break in t[i..j]. */
  predicate SameLine(t: string, i: int, j: int)
    requires 0 <= i <= j <= |t|
  {
    forall k :: i <= k < j ==> t[k] != '\n'
  }

  /** One way the pattern matches at `start`: "![" at start, the alt text up
      to `bracket`, "](" at bracket, the target up to `close`, ")" at close. */
  predicate Candidate(t: string, start: int, bracket: int, close: int)
  {
    && 0 <= start && start + 2 <= bracket && bracket + 2 <= close < |t|
    && t[start] == '!' && t[start + 1] == '['
    && SameLine(t, start + 2, bracket)
    && t[bracket] == ']' && t[bracket + 1] == '('
    && SameLine(t, bracket + 2, close)
    && t[close] == ')'
  }

  datatype Match = Match(start: nat, bracket: nat, close: nat)
  {
    /** Capture group 1: the image target. */
    function Target(t: string): string
      requires bracket + 2 <= close <= |t|
    {
      t[bracket + 2..close]
    }
  }

  /** The match the lazy groups settle on at its start: shortest alt text
      first, then shortest target. */
  ghost predicate Preferred(t: string, m: Match)
  {
    && Candidate(t, m.start, m.bracket, m.close)
    && forall b, c :: Candidate(t, m.start, b, c) ==>
         m.bracket < b || (m.bracket == b && m.close <= c)
  }

  /** `m` is the leftmost match found by a search beginning at `from`. */
  ghost predicate LeftmostFrom(t: string, from: int, m: Match)
  {
    && from <= m.start
    && Preferred(t, m)
    && forall s, b, c :: from <= s < m.start ==> !Candidate(t, s, b, c)
  }

  ghost predicate NoMatchFrom(t: string, from: int)
  {
    forall s, b, c :: from <= s ==> !Candidate(t, s, b, c)
  }

  /** `ms` is what iterating the matches from `from` yields: each search
      resumes just after the previous match. */
  ghost predicate Successive(t: string, from: int, ms: seq<Match>)
    decreases |ms|
  {
    if |ms| == 0 then NoMatchFrom(t, from)
    else LeftmostFrom(t, from, ms[0]) && Successive(t, ms[0].close + 1, ms[1..])
  }

  /** The first ')' at or after `i` on the same line: the lazy target group. */
  function CloseFrom(t: string, i: nat): (r: Option<nat>)
    ensures r.Some? ==> i <= r.value < |t| && t[r.value] == ')' && SameLine(t, i, r.value)
    ensures r.Some? ==> forall k :: i <= k < r.value ==> t[k] != ')'
    ensures r.None? ==> forall k :: i <= k < |t| && SameLine(t, i, k) ==> t[k] != ')'
    decreases |t| - i
  {
    if i >= |t| then None
    else if t[i] == ')' then Some(i)
    else if t[i] == '\n' then None
    else CloseFrom(t, i + 1)
  }

  /** Backtracking over the lazy alt group: try "](" at `b`, then at `b + 1`,
      and so on, never past a line break. */
  function BracketFrom(t: string, start: nat, b: nat): (r: Option<Match>)
    requires start + 2 <= b <= |t|
    requires t[start] == '!' && t[start + 1] == '['
    requires SameLine(t, start + 2, b)
    ensures r.Some? ==> r.value.start == start && b <= r.value.bracket
    ensures r.Some? ==> Candidate(t, start, r.value.bracket, r.value.close)
    ensures r.Some? ==> forall b', c :: b <= b' && Candidate(t, start, b', c) ==>
              r.value.bracket < b' || (r.value.bracket == b' && r.value.close <= c)
    ensures r.None? ==> forall b', c :: b <= b' ==> !Candidate(t, start, b', c)
    decreases |t| - b
  {
    if b + 1 >= |t| then None
    else if t[b] == ']' && t[b + 1] == '(' && CloseFrom(t, b + 2).Some? then
      Some(Match(start, b, CloseFrom(t, b + 2).value))
    else if t[b] == '\n' then None
    else BracketFrom(t, start, b + 1)
  }

  /** The match that begins at `start`, if any. */
  function MatchAt(t: string, start: nat): (r: Option<Match>)
    ensures r.Some? ==> r.value.start == start && Preferred(t, r.value)
    ensures r.None? ==> forall b, c :: !Candidate(t, start, b, c)
  {
    if start + 1 < |t| && t[start] == '!' && t[start + 1] == '[' then
      BracketFrom(t, start, start + 2)
    else None
  }

  /** The scanner: at each position try a match; on success resume after
      its ")", otherwise move one character on. */
  function ScanFrom(t: string, from: nat): (ms: seq<Match>)
    ensures Successive(t, from, ms)
    ensures forall k :: 0 <= k < |ms| ==> ms[k].bracket + 2 <= ms[k].close < |t|
    decreases |t| - from
  {
    if from >= |t| then []
    else
      match MatchAt(t, from)
      case Some(m) => [m] + ScanFrom(t, m.close + 1)
      case None =>
        var rest := ScanFrom(t, from + 1);
        SkipNonMatch(t, from, rest);
        rest
  }

  /** A position where nothing matches can be added in front of a search. */
  lemma SkipNonMatch(t: string, from: nat, ms: seq<Match>)
    requires forall b, c :: !Candidate(t, from, b, c)
    requires Successive(t, from + 1, ms)
    ensures Successive(t, from, ms)
  {
  }

  /** The targets of all markdown images, in document order. */
  function Targets(t: string): (r: seq<string>)
    ensures |r| == |ScanFrom(t, 0)|
    ensures forall k :: 0 <= k < |r| ==> r[k] == ScanFrom(t, 0)[k].Target(t)
  {
    var ms := ScanFrom(t, 0);
    seq(|ms|, k requires 0 <= k < |ms| => ms[k].Target(t))
  }

  /** The iteration is determined by the text: two match sequences that both
      satisfy the account above are the same. */
  lemma {:induction false} SuccessiveUnique(t: string, from: int, a: seq<Match>, b: seq<Match>)
    requires Successive(t, from, a) && Successive(t, from, b)
    ensures a == b
    decreases |a|
  {
    if |a| > 0 && |b| > 0 {
      var x, y := a[0], b[0];
      assert x == y;
      SuccessiveUnique(t, x.close + 1, a[1..], b[1..]);
      assert a == [x] + a[1..] && b == [y] + b[1..];
    }
  }

  /** A target never contains ")" or a line break. */
  lemma TargetShape(t: string, k: nat)
    requires k < |Targets(t)|
    ensures ')' !in Targets(t)[k] && '\n' !in Targets(t)[k]
  {
    ScanPreferred(t, 0, ScanFrom(t, 0), k);
    PreferredTargetShape(t, ScanFrom(t, 0)[k]);
  }

  /** The target of a preferred match stops at its first ")" and stays on
      one line. */
  lemma PreferredTargetShape(t: string, m: Match)
    requires Preferred(t, m)
    ensures ')' !in m.Target(t) && '\n' !in m.Target(t)
  {
    forall i | 0 <= i < |m.Target(t)|
      ensures m.Target(t)[i] != ')' && m.Target(t)[i] != '\n'
    {
      var p := m.bracket + 2 + i;
      assert m.Target(t)[i] == t[p];
      assert Candidate(t, m.start, m.bracket, p) ==> m.close <= p;
      assert SameLine(t, m.bracket + 2, p);
    }
  }

  /** Every element of a match iteration is the preferred match at its start. */
  lemma {:induction false} ScanPreferred(t: string, from: int, ms: seq<Match>, k: nat)
    requires Successive(t, from, ms) && k < |ms|
    ensures Preferred(t, ms[k])
    decreases k
  {
    if k > 0 {
      ScanPreferred(t, ms[0].close + 1, ms[1..], k - 1);
    }
  }
}

=== FILE: paths.dfy ===
/** Windows-style path strings: '\' separates components, the file name is
    what follows the last separator, and the extension follows the file
    name's last dot, as `std::path::Path` defines them. */
module Paths {
  import opened Wrappers

  const Separator: char := '\\'

  /** The last index holding `c`. */
  function LastIndex(s: string, c: char): (r: Option<nat>)
    ensures r.Some? ==> r.value < |s| && s[r.value] == c
    ensures r.Some? ==> forall j :: r.value < j < |s| ==> s[j] != c
    ensures r.None? <==> c !in s
    decreases |s|
  {
    if |s| == 0 then None
    else if s[|s| - 1] == c then Some(|s| - 1)
    else LastIndex(s[..|s| - 1], c)
  }

  /** `Path::parent`: everything before the last separator. */
  function Parent(p: string): string
  {
    match LastIndex(p, Separator)
    case Some(i) => p[..i]
    case None => ""
  }

  /** `Path::file_name`: everything after the last separator. */
  function FileName(p: string): string
  {
    p[NameStart(p)..]
  }

  /** Where the file name begins: just after the last separator, or at 0. */
  function NameStart(p: string): (k: nat)
    ensures k <= |p|
  {
    match LastIndex(p, Separator)
    case Some(i) => i + 1
    case None => 0
  }

  /** `Path::join` for a relative name: a separator goes in between unless
      the directory is empty or already ends with one. */
  function Join(dir: string, name: string): (r: string)
    ensures |r| >= |dir| + |name|
  {
    if |dir| == 0 then name
    else if dir[|dir| - 1] == Separator then dir + name
    else dir + [Separator] + name
  }

  /** `Path::extension` of a file name: the text after its last dot, unless
      that dot starts the name, or the name is "..". */
  function Extension(name: string): (r: Option<string>)
    ensures r.Some? <==> name != ".." && exists i :: 1 <= i < |name| && name[i] == '.'
    ensures r.Some? ==> '.' !in r.value && |r.value| + 2 <= |name|
    ensures r.Some? ==> name[|name| - |r.value| - 1] == '.' && r.value == name[|name| - |r.value|..]
  {
    if name == ".." then None
    else
      match LastIndex(name, '.')
      case None => None
      case Some(i) => if i == 0 then None else Some(name[i + 1..])
  }

  /** The path's file name has an extension (the program unwraps it). */
  predicate HasExtension(p: string)
  {
    Extension(FileName(p)).Some?
  }

  /** The extension of the path's file name, or "" when it has none. */
  function ExtensionOf(p: string): string
  {
    Extension(FileName(p)).GetOr("")
  }

  /** A path is its parent, a separator and its file name; the file name
      holds no separator. */
  lemma ParentAndFileName(p: string)
    ensures Separator !in FileName(p)
    ensures Separator in p ==> p == Parent(p) + [Separator] + FileName(p)
    ensures Separator !in p ==> Parent(p) == "" && FileName(p) == p
  {
  }

  /** Joining a bare name onto a directory gives a path whose file name is
      that name and whose parent is that directory. */
  lemma JoinInverse(dir: string, name: string)
    requires Separator !in name
    requires |dir| > 0 && dir[|dir| - 1] != Separator
    ensures FileName(Join(dir, name)) == name
    ensures Parent(Join(dir, name)) == dir
  {
    var p := Join(dir, name);
    assert p[|dir|] == Separator;
    assert LastIndex(p, Separator) == Some(|dir|);
    assert p[..|dir|] == dir;
    assert p[|dir| + 1..] == name;
  }
}

=== FILE: rename.dfy ===
/** Renaming the used images 1, 2, 3, ... in catalog order, keeping each
    extension, and rewriting the document's references to match
    (`rename_images` and the numbering in `update`). The copies are I/O:
    they are returned as a list of intended copy operations. */
module Rename {
  import opened Wrappers
  import Strings
  import Decimal
  import Paths
  import Seqs
  import Catalog

  /** A used image with the number it is given. */
  datatype Numbered = Numbered(index: nat, image: Catalog.Image)

  /** Copy the file at `source` to `target`; `index` is the number it gets. */
  datatype CopyOp = CopyOp(index: nat, source: string, target: string)

  /** The copies in the order they are made, the rewritten document and
      the path it is written to. */
  datatype Outcome = Outcome(copies: seq<CopyOp>, text: string, newMdPath: string)

  /** The used images of the catalog numbered from 1, in catalog order. */
  function NumberUsed(images: seq<Catalog.Image>): (r: seq<Numbered>)
    ensures |r| == |Seqs.Positions(images, Catalog.IsUsed)|
    ensures forall j :: 0 <= j < |r| ==>
              r[j].index == j + 1 && r[j].image == images[Seqs.Positions(images, Catalog.IsUsed)[j]]
    decreases |images|
  {
    if |images| == 0 then []
    else
      var n := |images| - 1;
      var front := NumberUsed(images[..n]);
      if images[n].used then front + [Numbered(|front| + 1, images[n])] else front
  }

  /** The new file name "{index}.{extension}". */
  function NewFileName(index: nat, ext: string): string
  {
    Decimal.Format(index) + "." + ext
  }

  /** The image was found through a reference in the document. */
  predicate Referenced(im: Catalog.Image)
  {
    im.rawPath.Some?
  }

  /** Every image to rename has a reference text and an extension (the
      program unwraps both). */
  predicate Renamable(ns: seq<Numbered>)
  {
    forall j :: 0 <= j < |ns| ==> Referenced(ns[j].image) && Paths.HasExtension(ns[j].image.absPath)
  }

  /** The copy that gives `n` its new name, beside the original file. */
  function CopyFor(n: Numbered): CopyOp
  {
    var abs := n.image.absPath;
    CopyOp(n.index, abs, Paths.Join(Paths.Parent(abs), NewFileName(n.index, Paths.ExtensionOf(abs))))
  }

  /** The reference text with every occurrence of the old file name
      replaced by the new one. */
  function NewRawPath(n: Numbered): string
    requires Referenced(n.image)
  {
    var abs := n.image.absPath;
    Strings.Replace(n.image.rawPath.value, Paths.FileName(abs), NewFileName(n.index, Paths.ExtensionOf(abs)))
  }

  /** One rewrite step: every occurrence of the image's reference text in the
      document becomes the new reference text. An image without a reference
      text leaves the document alone (the program never gets here with one). */
  function RewriteStep(text: string, n: Numbered): string
  {
    if Referenced(n.image) then Strings.Replace(text, n.image.rawPath.value, NewRawPath(n)) else text
  }

  /** The document after rewriting for the images `ns[from..]`, the last
      one first and `ns[from]` last. */
  function RewriteFrom(text: string, ns: seq<Numbered>, from: nat): string
    requires from <= |ns|
    decreases |ns| - from
  {
    if from == |ns| then text
    else RewriteStep(RewriteFrom(text, ns, from + 1), ns[from])
  }

  /** The text before the first dot of a file name (`split(".")` then `[0]`). */
  function Stem(name: string): string
  {
    Strings.Split(name, ".")[0]
  }

  /** Where the rewritten document goes: "{stem}_new.md" beside the original. */
  function NewMdPath(mdPath: string): string
  {
    Paths.Join(Paths.Parent(mdPath), Stem(Paths.FileName(mdPath)) + "_new.md")
  }

  /** `rename_images`: walk the numbered images from the last to the first,
      record each copy and rewrite the document as it goes. */
  method RenameImages(ns: seq<Numbered>, doc: string, mdPath: string) returns (out: Outcome)
    requires Renamable(ns)
    ensures out.copies == Seqs.MapReverse(ns, CopyFor)
    ensures out.text == RewriteFrom(doc, ns, 0)
    ensures out.newMdPath == NewMdPath(mdPath)
  {
    var text := doc;
    var copies: seq<CopyOp> := [];
    var j := |ns|;
    while j > 0
      invariant 0 <= j <= |ns|
      invariant copies == Seqs.MapReverse(ns[j..], CopyFor)
      invariant text == RewriteFrom(doc, ns, j)
      decreases j
    {
      Seqs.MapReverseFrom(ns, j - 1, CopyFor);
      copies := copies + [CopyFor(ns[j - 1])];
      text := RewriteStep(text, ns[j - 1]);
      j := j - 1;
    }
    assert ns[0..] == ns;
    out := Outcome(copies, text, NewMdPath(mdPath));
  }

  /** Each copy carries the number of the image it renames. */
  lemma CopyIndices(ns: seq<Numbered>, copies: seq<CopyOp>)
    requires copies == Seqs.MapReverse(ns, CopyFor)
    ensures |copies| == |ns|
    ensures forall j :: 0 <= j < |ns| ==> copies[j].index == ns[|ns| - 1 - j].index
  {
  }

  /** Numbered as the catalog numbers them, the copies are made with
      strictly decreasing numbers |ns|, ..., 1. */
  lemma CopiesDescend(images: seq<Catalog.Image>, copies: seq<CopyOp>)
    requires |copies| == |NumberUsed(images)|
    requires forall j :: 0 <= j < |copies| ==> copies[j].index == NumberUsed(images)[|copies| - 1 - j].index
    ensures forall j :: 0 <= j < |copies| ==> copies[j].index == |copies| - j
    ensures forall j, k :: 0 <= j < k < |copies| ==> copies[j].index > copies[k].index
  {
    var ns := NumberUsed(images);
    forall j | 0 <= j < |copies|
      ensures copies[j].index == |copies| - j
    {
      assert copies[j].index == ns[|copies| - 1 - j].index;
    }
  }

  /** The copies of the catalog's used images carry the numbers
      |copies|, ..., 1 in the order they are made. */
  lemma CopiesNumbered(images: seq<Catalog.Image>, copies: seq<CopyOp>)
    requires copies == Seqs.MapReverse(NumberUsed(images), CopyFor)
    ensures |copies| == |Seqs.Positions(images, Catalog.IsUsed)|
    ensures forall j :: 0 <= j < |copies| ==> copies[j].index == |copies| - j
  {
    CopyIndices(NumberUsed(images), copies);
    CopiesDescend(images, copies);
  }

  /** The new file name keeps the original extension. */
  lemma NewFileNameExtension(index: nat, ext: string)
    requires '.' !in ext
    ensures Paths.Extension(NewFileName(index, ext)) == Some(ext)
  {
    var name := NewFileName(index, ext);
    var d := Decimal.Format(index);
    assert name[0] == d[0] && Decimal.IsDigit(d[0]);
    assert name != "..";
    assert name[|d|] == '.';
    assert forall k :: |d| < k < |name| ==> name[k] == ext[k - |d| - 1];
    var last := Paths.LastIndex(name, '.');
    assert last.Some?;
    assert last.value >= |d|;
    assert last.value == |d|;
    assert name[|d| + 1..] == ext;
  }

  /** Different numbers give different file names, whatever the extensions. */
  lemma NewFileNamesDistinct(i: nat, a: string, j: nat, b: string)
    requires NewFileName(i, a) == NewFileName(j, b)
    ensures i == j
  {
    var s := NewFileName(i, a);
    var di, dj := Decimal.Format(i), Decimal.Format(j);
    assert s[|di|] == '.' && s[|dj|] == '.';
    assert !Decimal.IsDigit(s[|di|]) && !Decimal.IsDigit(s[|dj|]);
    assert forall k :: 0 <= k < |di| ==> Decimal.IsDigit(s[k]);
    assert forall k :: 0 <= k < |dj| ==> Decimal.IsDigit(s[k]);
    assert di == s[..|di|] && dj == s[..|dj|];
    Decimal.FormatInjective(i, j);
  }

  /** A document holding no image's reference text comes out unchanged. */
  lemma {:induction false} RewriteUntouched(text: string, ns: seq<Numbered>, from: nat)
    requires from <= |ns|
    requires forall j :: 0 <= j < |ns| && Referenced(ns[j].image) ==>
               !Strings.Contains(text, ns[j].image.rawPath.value)
    ensures RewriteFrom(text, ns, from) == text
    decreases |ns| - from
  {
    if from < |ns| {
      RewriteUntouched(text, ns, from + 1);
      assert RewriteFrom(text, ns, from) == RewriteStep(text, ns[from]);
      if Referenced(ns[from].image) {
        Strings.ReplaceAbsent(text, ns[from].image.rawPath.value, NewRawPath(ns[from]));
      }
    }
  }

  /** The stem is the file name up to its first dot. */
  lemma StemShape(name: string)
    ensures '.' !in Stem(name)
    ensures |Stem(name)| <= |name| && name[..|Stem(name)|] == Stem(name)
    ensures |Stem(name)| < |name| ==> name[|Stem(name)|] == '.'
  {
    var pieces := Strings.Split(name, ".");
    Strings.SplitPiecesAvoid(name, ".");
    Strings.SplitJoinRoundTrip(name, ".");
    var stem := pieces[0];
    forall k | 0 <= k < |stem|
      ensures stem[k] != '.'
    {
      assert stem[k..k + 1][0] == stem[k];
      assert !Strings.OccursAt(stem, ".", k);
    }
    if |pieces| > 1 {
      assert Strings.Join(pieces, ".") == stem + "." + Strings.Join(pieces[1..], ".");
    }
  }

  /** The new document sits beside the original and is named after the
      original's stem, followed by "_new.md". */
  lemma NewMdPathShape(mdPath: string)
    requires Paths.Separator in mdPath
    requires |Paths.Parent(mdPath)| > 0 && Paths.Parent(mdPath)[|Paths.Parent(mdPath)| - 1] != Paths.Separator
    ensures Paths.Parent(NewMdPath(mdPath)) == Paths.Parent(mdPath)
    ensures Paths.FileName(NewMdPath(mdPath)) == Stem(Paths.FileName(mdPath)) + "_new.md"
  {
    var name := Paths.FileName(mdPath);
    Paths.ParentAndFileName(mdPath);
    StemShape(name);
    var stem := Stem(name);
    assert Paths.Separator !in stem by {
      forall k | 0 <= k < |stem|
        ensures stem[k] != Paths.Separator
      {
        assert stem[k] == name[k];
      }
    }
    Paths.JoinInverse(Paths.Parent(mdPath), stem + "_new.md");
  }

  // Worked examples. Each fact about a string literal sits in a small
  // lemma of its own, so that every proof obligation holds one literal
  // image at most and stays within the solver's budget.

  /** The rewrite replaces text, not references: the images d\\ba.png and
      d\\a.png, numbered 1 and 2 and referenced as "ba.png" and "a.png",
      get the new reference texts "1.png" and "2.png"; but the second
      image's rewrite, which comes first, also changes the "a.png" inside
      "ba.png", so the rewritten document never names the first image's
      new file. */
  lemma NestedReferenceRewritten(doc: string, ns: seq<Numbered>)
    requires doc == "![](ba.png)![](a.png)"
    requires ns == [Numbered(1, Catalog.Image("d\\ba.png", Some("ba.png"), true)),
                    Numbered(2, Catalog.Image("d\\a.png", Some("a.png"), true))]
    ensures NewRawPath(ns[0]) == "1.png" && NewRawPath(ns[1]) == "2.png"
    ensures !Strings.Contains(RewriteFrom(doc, ns, 0), NewRawPath(ns[0]))
  {
    NestedNames(ns[0], ns[1]);
    RewriteTwo(doc, ns);
    NestedText(doc, "ba.png", "1.png", "a.png", "2.png");
  }

  /** The new reference texts of the two images of the example. */
  lemma NestedNames(n1: Numbered, n2: Numbered)
    requires n1 == Numbered(1, Catalog.Image("d\\ba.png", Some("ba.png"), true))
    requires n2 == Numbered(2, Catalog.Image("d\\a.png", Some("a.png"), true))
    ensures NewRawPath(n1) == "1.png" && NewRawPath(n2) == "2.png"
  {
    FirstName(n1);
    SecondName(n2);
  }

  lemma FirstName(n: Numbered)
    requires n == Numbered(1, Catalog.Image("d\\ba.png", Some("ba.png"), true))
    ensures NewRawPath(n) == "1.png"
  {
    assert NewFileName(1, "png") == "1.png";
    assert n.image.absPath == "d\\" + "ba.png";
    ExampleName(n, "ba.png", "1.png");
  }

  lemma SecondName(n: Numbered)
    requires n == Numbered(2, Catalog.Image("d\\a.png", Some("a.png"), true))
    ensures NewRawPath(n) == "2.png"
  {
    assert NewFileName(2, "png") == "2.png";
    assert n.image.absPath == "d\\" + "a.png";
    ExampleName(n, "a.png", "2.png");
  }

  /** A bare file name ending in ".png" after at least one other character. */
  predicate PngName(name: string)
  {
    |name| >= 5 && name[|name| - 4..] == ".png" && Paths.Separator !in name
  }

  /** An image "d\\{name}" of the examples, referenced as "{name}", gets
      the reference text "{index}.png". */
  lemma ExampleName(n: Numbered, name: string, newName: string)
    requires n.image.absPath == "d\\" + name && n.image.rawPath == Some(name)
    requires PngName(name)
    requires newName == NewFileName(n.index, "png")
    ensures NewRawPath(n) == newName
  {
    var abs := n.image.absPath;
    FileNameOf(abs, name);
    ExtensionOfPng(abs, name);
    ReplaceWhole(name, newName);
  }

  /** Renaming in a folder that already holds a numbered name: the used
      images d\\2.png and d\\x.png are numbered 1 and 2, and the copies run
      from the last number down. The first copy made writes d\\x.png onto
      d\\2.png, which is the source of the second copy, so the original
      d\\2.png is overwritten before it is copied to d\\1.png. */
  lemma CopyOverwritesOriginal(ns: seq<Numbered>)
    requires ns == [Numbered(1, Catalog.Image("d\\2.png", Some("2.png"), true)),
                    Numbered(2, Catalog.Image("d\\x.png", Some("x.png"), true))]
    ensures Seqs.MapReverse(ns, CopyFor)[0] == CopyFor(ns[1])
    ensures Seqs.MapReverse(ns, CopyFor)[1] == CopyFor(ns[0])
    ensures Seqs.MapReverse(ns, CopyFor)[0].target == Seqs.MapReverse(ns, CopyFor)[1].source
    ensures Seqs.MapReverse(ns, CopyFor)[1].source == "d\\2.png"
  {
    SecondCopyTarget(ns[1]);
  }

  lemma SecondCopyTarget(n: Numbered)
    requires n == Numbered(2, Catalog.Image("d\\x.png", Some("x.png"), true))
    ensures CopyFor(n).target == "d\\2.png"
  {
    assert NewFileName(2, "png") == "2.png";
    assert n.image.absPath == "d\\" + "x.png";
    ExampleTarget(n, "x.png", "2.png");
    TargetLiteral("d", Paths.Separator, "2.png");
  }

  lemma TargetLiteral(dir: string, sep: char, name: string)
    requires dir == "d" && sep == '\\' && name == "2.png"
    ensures dir + [sep] + name == "d\\2.png"
  {
  }

  /** The copy of an image "d\\{name}" of the examples goes to "d\\{index}.png". */
  lemma ExampleTarget(n: Numbered, name: string, newName: string)
    requires n.image.absPath == "d\\" + name && PngName(name)
    requires newName == NewFileName(n.index, "png")
    ensures CopyFor(n).target == "d" + [Paths.Separator] + newName
  {
    var abs := n.image.absPath;
    FileNameOf(abs, name);
    ExtensionOfPng(abs, name);
    assert CopyFor(n).target == Paths.Join(Paths.Parent(abs), NewFileName(n.index, Paths.ExtensionOf(abs)));
    JoinPlain("d", newName);
  }

  lemma JoinPlain(dir: string, name: string)
    requires |dir| > 0 && dir[|dir| - 1] != Paths.Separator
    ensures Paths.Join(dir, name) == dir + [Paths.Separator] + name
  {
  }

  /** In the same folder the rewrite merges references: the document
      "![](2.png)![](x.png)" first has "x.png" rewritten to "2.png", and
      then every "2.png", both the original and the new one, to "1.png";
      both references end up naming 1.png. */
  lemma ReferencesMerged(doc: string, ns: seq<Numbered>)
    requires doc == "![](2.png)![](x.png)"
    requires ns == [Numbered(1, Catalog.Image("d\\2.png", Some("2.png"), true)),
                    Numbered(2, Catalog.Image("d\\x.png", Some("x.png"), true))]
    ensures NewRawPath(ns[0]) == "1.png" && NewRawPath(ns[1]) == "2.png"
    ensures RewriteFrom(doc, ns, 0) == "![](1.png)![](1.png)"
  {
    MergedFirstName(ns[0]);
    MergedSecondName(ns[1]);
    RewriteTwo(doc, ns);
    MergedText(doc, "2.png", "1.png", "x.png", "2.png");
  }

  lemma MergedFirstName(n: Numbered)
    requires n == Numbered(1, Catalog.Image("d\\2.png", Some("2.png"), true))
    ensures NewRawPath(n) == "1.png"
  {
    assert NewFileName(1, "png") == "1.png";
    assert n.image.absPath == "d\\" + "2.png";
    ExampleName(n, "2.png", "1.png");
  }

  lemma MergedSecondName(n: Numbered)
    requires n == Numbered(2, Catalog.Image("d\\x.png", Some("x.png"), true))
    ensures NewRawPath(n) == "2.png"
  {
    assert NewFileName(2, "png") == "2.png";
    assert n.image.absPath == "d\\" + "x.png";
    ExampleName(n, "x.png", "2.png");
  }

  /** The text level of the merging example. */
  lemma MergedText(doc: string, raw0: string, new0: string, raw1: string, new1: string)
    requires doc == "![](2.png)![](x.png)"
    requires raw0 == "2.png" && new0 == "1.png" && raw1 == "x.png" && new1 == "2.png"
    ensures Strings.Replace(Strings.Replace(doc, raw1, new1), raw0, new0) == "![](1.png)![](1.png)"
  {
    MergeStepOne(doc, raw1, new1);
    MergeStepTwo("![](" + new1 + (")![](" + new1 + ")"), raw0, new0);
  }

  /** The first rewrite step: "x.png" becomes "2.png". */
  lemma MergeStepOne(doc: string, from: string, to: string)
    requires doc == "![](2.png)![](x.png)" && from == "x.png" && to == "2.png"
    ensures Strings.Replace(doc, from, to) == "![](" + to + (")![](" + to + ")")
  {
    var head, tail := "![](2.png)![](", ")";
    StepOneLiteral(head, from, to, tail);
    ReplaceAfter(head, from, tail, to);
    Strings.AbsentByChar(tail, from, 0);
    Strings.ReplaceAbsent(tail, from, to);
  }

  lemma StepOneLiteral(head: string, from: string, to: string, tail: string)
    requires head == "![](2.png)![](" && from == "x.png" && to == "2.png" && tail == ")"
    ensures head + from + tail == "![](2.png)![](x.png)"
    ensures head + to + tail == "![](" + to + (")![](" + to + ")")
  {
  }

  /** The second rewrite step: both occurrences of "2.png" become "1.png". */
  lemma MergeStepTwo(text: string, from: string, to: string)
    requires from == "2.png" && to == "1.png" && text == "![](" + from + (")![](" + from + ")")
    ensures Strings.Replace(text, from, to) == "![](1.png)![](1.png)"
  {
    var head, mid, tail := "![](", ")![](", ")";
    ReplaceAfter(head, from, mid + from + tail, to);
    ReplaceAfter(mid, from, tail, to);
    Strings.AbsentByChar(tail, from, 0);
    Strings.ReplaceAbsent(tail, from, to);
    MergedLiteral(head, to, mid, tail);
  }

  lemma MergedLiteral(head: string, to: string, mid: string, tail: string)
    requires head == "![](" && to == "1.png" && mid == ")![](" && tail == ")"
    ensures head + to + (mid + to + tail) == "![](1.png)![](1.png)"
  {
  }

  /** Two images: the second one's step comes first. */
  lemma RewriteTwo(doc: string, ns: seq<Numbered>)
    requires |ns| == 2
    ensures RewriteFrom(doc, ns, 0) == RewriteStep(RewriteStep(doc, ns[1]), ns[0])
  {
    assert RewriteFrom(doc, ns, 2) == doc;
  }

  /** The text level of the example. */
  lemma NestedText(doc: string, raw1: string, new1: string, raw2: string, new2: string)
    requires doc == "![](ba.png)![](a.png)"
    requires raw1 == "ba.png" && new1 == "1.png" && raw2 == "a.png" && new2 == "2.png"
    ensures !Strings.Contains(Strings.Replace(Strings.Replace(doc, raw2, new2), raw1, new1), new1)
  {
    var once := Strings.Replace(doc, raw2, new2);
    NestedOnce(doc, raw2, new2);
    Strings.AbsentByChar(once, raw1, 1);
    Strings.ReplaceAbsent(once, raw1, new1);
    Strings.AbsentByChar(once, new1, 0);
  }

  lemma NestedOnce(doc: string, raw2: string, new2: string)
    requires doc == "![](ba.png)![](a.png)" && raw2 == "a.png" && new2 == "2.png"
    ensures 'a' !in Strings.Replace(doc, raw2, new2) && '1' !in Strings.Replace(doc, raw2, new2)
  {
    StepOnNested(doc, raw2, new2);
    AvoidsPieces("![](b", new2, ")![](", 'a');
    AvoidsPieces("![](b", new2, ")![](", '1');
  }

  lemma AvoidsPieces(head: string, to: string, mid: string, c: char)
    requires c !in head && c !in to && c !in mid && c != ')'
    ensures c !in head + to + (mid + to + ")")
  {
  }

  /** The first rewrite step of the example: both occurrences of "a.png" go. */
  lemma StepOnNested(doc: string, from: string, to: string)
    requires doc == "![](ba.png)![](a.png)" && from == "a.png" && to == "2.png"
    ensures Strings.Replace(doc, from, to) == "![](b" + to + (")![](" + to + ")")
  {
    var head, mid, tail := "![](b", ")![](", ")";
    assert doc == head + from + (mid + from + tail);
    ReplaceAfter(head, from, mid + from + tail, to);
    ReplaceAfter(mid, from, tail, to);
    Strings.AbsentByChar(tail, from, 0);
    Strings.ReplaceAbsent(tail, from, to);
  }

  /** When the text before an occurrence cannot start one, `replace` keeps
      that text and replaces the occurrence first. */
  lemma ReplaceAfter(head: string, from: string, rest: string, to: string)
    requires |from| > 0 && from[0] !in head
    ensures Strings.Replace(head + from + rest, from, to) == head + to + Strings.Replace(rest, from, to)
  {
    var s := head + from + rest;
    assert s[|head|..|head| + |from|] == from;
    forall j | 0 <= j < |head|
      ensures s[j] != from[0]
    {
      assert s[j] == head[j];
    }
    Strings.FirstByHead(s, from, |head|);
    assert s[..|head|] == head && s[|head| + |from|..] == rest;
  }

  /** An image "{dir}\\{name}" referenced as "{name}" gets as new
      reference text exactly its new file name "{index}.{extension}". */
  lemma NewNameOf(n: Numbered, dir: string, name: string)
    requires |dir| > 0 && dir[|dir| - 1] != Paths.Separator
    requires Paths.Separator !in name && |name| > 0
    requires n.image.absPath == Paths.Join(dir, name) && n.image.rawPath == Some(name)
    ensures NewRawPath(n) == NewFileName(n.index, Paths.ExtensionOf(n.image.absPath))
  {
    Paths.JoinInverse(dir, name);
    ReplaceWhole(name, NewFileName(n.index, Paths.ExtensionOf(n.image.absPath)));
  }

  /** An image "{dir}\\{name}" referenced as "{prefix}{name}", where the
      file name first occurs at the end (a folder part such as
      "doc.assets/" that does not contain it), keeps the folder part and
      gets only the file name replaced by "{index}.{extension}". */
  lemma NewNameOfPrefixed(n: Numbered, dir: string, prefix: string, name: string)
    requires |dir| > 0 && dir[|dir| - 1] != Paths.Separator
    requires Paths.Separator !in name && |name| > 0
    requires n.image.absPath == Paths.Join(dir, name) && n.image.rawPath == Some(prefix + name)
    requires Strings.IndexOf(prefix + name, name) == Some(|prefix|)
    ensures NewRawPath(n) == prefix + NewFileName(n.index, Paths.ExtensionOf(n.image.absPath))
  {
    Paths.JoinInverse(dir, name);
    ReplaceSuffix(prefix, name, NewFileName(n.index, Paths.ExtensionOf(n.image.absPath)));
  }

  /** An image "{dir}\\{name}" whose reference text "{prefix}{name}" holds
      the file name first inside the folder part, at position i: the folder
      part is rewritten there too, so the new reference text starts with
      the folder part up to i followed by the new file name. */
  lemma NewNameInFolder(n: Numbered, dir: string, prefix: string, name: string, i: nat)
    requires |dir| > 0 && dir[|dir| - 1] != Paths.Separator
    requires Paths.Separator !in name && |name| > 0
    requires n.image.absPath == Paths.Join(dir, name) && n.image.rawPath == Some(prefix + name)
    requires Strings.IndexOf(prefix + name, name) == Some(i) && i + |name| <= |prefix|
    ensures |NewRawPath(n)| >= i + |NewFileName(n.index, Paths.ExtensionOf(n.image.absPath))|
    ensures NewRawPath(n)[..i + |NewFileName(n.index, Paths.ExtensionOf(n.image.absPath))|]
            == prefix[..i] + NewFileName(n.index, Paths.ExtensionOf(n.image.absPath))
  {
    var to := NewFileName(n.index, Paths.ExtensionOf(n.image.absPath));
    var raw := prefix + name;
    assert NewRawPath(n) == Strings.Replace(raw, name, to) by {
      Paths.JoinInverse(dir, name);
    }
    assert |Strings.Replace(raw, name, to)| >= i + |to| &&
           Strings.Replace(raw, name, to)[..i + |to|] == prefix[..i] + to by {
      ReplaceHead(raw, name, to, i);
      assert raw[..i] == prefix[..i];
    }
  }

  /** `replace` keeps the text before the first occurrence and puts the
      replacement right after it. */
  lemma ReplaceHead(s: string, from: string, to: string, i: nat)
    requires |from| > 0 && Strings.IndexOf(s, from) == Some(i)
    ensures |Strings.Replace(s, from, to)| >= i + |to|
    ensures Strings.Replace(s, from, to)[..i + |to|] == s[..i] + to
  {
    Strings.ReplaceAt(s, from, to);
  }

  /** Replacing a pattern whose first occurrence ends the text replaces
      that occurrence alone. */
  lemma ReplaceSuffix(prefix: string, name: string, to: string)
    requires |name| > 0 && Strings.IndexOf(prefix + name, name) == Some(|prefix|)
    ensures Strings.Replace(prefix + name, name, to) == prefix + to
  {
    var s := prefix + name;
    Strings.ReplaceAt(s, name, to);
    assert s[..|prefix|] == prefix;
    assert s[|prefix| + |name|..] == "";
    assert Strings.IndexOf("", name) == None;
    assert Strings.Replace(s, name, to) == prefix + to + "";
  }

  lemma FileNameOf(abs: string, name: string)
    requires abs == "d\\" + name && Paths.Separator !in name
    ensures Paths.FileName(abs) == name
    ensures Paths.Parent(abs) == "d"
  {
    assert Paths.LastIndex(abs, Paths.Separator) == Some(1);
  }

  lemma ExtensionOfPng(abs: string, name: string)
    requires abs == "d\\" + name && PngName(name)
    ensures Paths.ExtensionOf(abs) == "png"
  {
    FileNameOf(abs, name);
    var k := |name| - 4;
    assert name[k] == '.' && name[k + 1] == 'p' && name[k + 2] == 'n' && name[k + 3] == 'g' by {
      assert name[k..][0] == name[k] && name[k..][1] == name[k + 1];
      assert name[k..][2] == name[k + 2] && name[k..][3] == name[k + 3];
    }
    var last := Paths.LastIndex(name, '.');
    assert last.Some?;
    assert last.value == k;
    assert name[k + 1..] == "png";
  }

  lemma ReplaceWhole(name: string, to: string)
    requires |name| > 0
    ensures Strings.Replace(name, name, to) == to
  {
    Strings.FirstByHead(name, name, 0);
    assert name[|name|..] == "";
    assert Strings.IndexOf("", name) == None;
    assert Strings.Replace(name, name, to) == to + "";
  }
}

=== FILE: seqs.dfy ===
/** Order-preserving selection from a sequence, the shape of
    `iter().filter(..)` and of a loop that pushes the kept elements, and the
    mapped reversal that `iter().rev()` followed by a push gives. */
module Seqs {

  /** The indices of the elements `keep` accepts, in increasing order:
      exactly those indices and no others. */
  function Positions<T>(s: seq<T>, keep: T -> bool): (idx: seq<nat>)
    ensures forall j :: 0 <= j < |idx| ==> idx[j] < |s| && keep(s[idx[j]])
    ensures forall j, k :: 0 <= j < k < |idx| ==> idx[j] < idx[k]
    ensures forall i :: 0 <= i < |s| && keep(s[i]) ==> i in idx
    ensures |idx| <= |s|
    decreases |s|
  {
    if |s| == 0 then []
    else
      var front := Positions(s[..|s| - 1], keep);
      if keep(s[|s| - 1]) then front + [|s| - 1] else front
  }

  /** No element is accepted exactly when no position is selected. */
  lemma PositionsEmpty<T>(s: seq<T>, keep: T -> bool)
    ensures |Positions(s, keep)| == 0 <==> forall i :: 0 <= i < |s| ==> !keep(s[i])
  {
    var idx := Positions(s, keep);
    if |idx| > 0 {
      assert keep(s[idx[0]]);
    }
  }

  /** Every element is accepted or rejected: the two selections add up. */
  lemma {:induction false} PositionsPartition<T>(s: seq<T>, keep: T -> bool)
    ensures |Positions(s, keep)| + |Positions(s, x => !keep(x))| == |s|
    decreases |s|
  {
    if |s| > 0 {
      PositionsPartition(s[..|s| - 1], keep);
    }
  }

  /** The elements `keep` accepts, in their original order. */
  function Filter<T>(s: seq<T>, keep: T -> bool): (r: seq<T>)
    ensures |r| == |Positions(s, keep)|
    ensures forall j :: 0 <= j < |r| ==> r[j] == s[Positions(s, keep)[j]]
    decreases |s|
  {
    if |s| == 0 then []
    else
      var n := |s| - 1;
      var front := Filter(s[..n], keep);
      if keep(s[n]) then front + [s[n]] else front
  }

  /** An element survives the filter exactly when it is present and accepted. */
  lemma FilterMembership<T>(s: seq<T>, keep: T -> bool)
    ensures forall x :: x in Filter(s, keep) <==> x in s && keep(x)
  {
    var r := Filter(s, keep);
    var idx := Positions(s, keep);
    forall x | x in r
      ensures x in s && keep(x)
    {
      var j :| 0 <= j < |r| && r[j] == x;
      assert s[idx[j]] == x;
    }
    forall x | x in s && keep(x)
      ensures x in r
    {
      var i :| 0 <= i < |s| && s[i] == x;
      assert i in idx;
      var j :| 0 <= j < |idx| && idx[j] == i;
      assert r[j] == x;
    }
  }

  /** `f` applied to the elements from the last to the first. */
  function MapReverse<A, B>(s: seq<A>, f: A -> B): (r: seq<B>)
    ensures |r| == |s|
    ensures forall k :: 0 <= k < |s| ==> r[k] == f(s[|s| - 1 - k])
    decreases |s|
  {
    if |s| == 0 then [] else MapReverse(s[1..], f) + [f(s[0])]
  }

  /** Starting the suffix one element earlier adds that element's image last. */
  lemma MapReverseFrom<A, B>(s: seq<A>, i: nat, f: A -> B)
    requires i < |s|
    ensures MapReverse(s[i..], f) == MapReverse(s[i + 1..], f) + [f(s[i])]
  {
    assert s[i..][1..] == s[i + 1..];
  }
}

=== FILE: session.dfy ===
/** The application state and the steps that change it (`update`): choosing
    the document, with the image directory found beside it; choosing the
    image directory; refreshing the catalog; removing the unused files; and
    renaming the used ones. The filesystem is a `Disk` value that the steps
    read through its fields. Each dialog's answer is a plain argument. */
module Session {
  import opened Wrappers
  import Strings
  import Paths
  import Seqs
  import Extract
  import DirScan
  import Catalog
  import Rename

  /** `App`: the chosen document, the chosen image directory and the catalog. */
  datatype App = App(mdFilePath: Option<string>, imageDirPath: Option<string>, images: seq<Catalog.Image>)

  /** What the program reads from disk: whether a path is an existing
      directory, every file under a directory (the recursive walk, in its
      order) and the text of a file. */
  datatype Disk = Disk(isDir: string -> bool, filesUnder: string -> seq<string>, contents: string -> string)

  /** The start state (`new`): nothing chosen, no images. */
  const Initial: App := App(None, None, [])

  /** The start state is well formed: it has no images. */
  lemma InitialWellFormed()
    ensures WellFormed(Initial)
  {
  }

  /** Every file under `dir` has an extension: the walk unwraps it. */
  predicate Listable(disk: Disk, dir: string)
  {
    DirScan.AllHaveExtensions(disk.filesUnder(dir))
  }

  /** What a refreshed catalog guarantees: `used` goes with a recorded
      reference text, every entry has an extension, and without a document
      nothing is used. */
  predicate WellFormed(app: App)
  {
    && Catalog.Consistent(app.images)
    && (forall i :: 0 <= i < |app.images| ==> Paths.HasExtension(app.images[i].absPath))
    && (app.mdFilePath.None? ==> forall i :: 0 <= i < |app.images| ==> !app.images[i].used)
  }

  /** The image files under the chosen directory; none without one. */
  function DirImages(app: App, disk: Disk): seq<string>
    requires app.imageDirPath.Some? ==> Listable(disk, app.imageDirPath.value)
  {
    if app.imageDirPath.Some? then DirScan.FindDirImages(disk.filesUnder(app.imageDirPath.value)) else []
  }

  /** The references of the chosen document; none without one. */
  function References(app: App, disk: Disk, html: string -> seq<string>): seq<Extract.Reference>
  {
    if app.mdFilePath.Some? then
      Extract.FindMdImages(disk.contents(app.mdFilePath.value), app.mdFilePath.value, html)
    else []
  }

  /** `fresh_images`: rebuild the catalog from the directory listing and the
      document's references; the chosen paths stay as they are. */
  function Refresh(app: App, disk: Disk, html: string -> seq<string>): (r: App)
    requires app.imageDirPath.Some? ==> Listable(disk, app.imageDirPath.value)
    ensures r.mdFilePath == app.mdFilePath && r.imageDirPath == app.imageDirPath
    ensures WellFormed(r)
    ensures |r.images| == |DirImages(app, disk)|
    ensures forall i :: 0 <= i < |r.images| ==> r.images[i].absPath == DirImages(app, disk)[i]
    ensures forall i :: 0 <= i < |r.images| ==>
              (r.images[i].used <==> r.images[i].absPath in Catalog.ResolvedPaths(References(app, disk, html)))
    ensures app.mdFilePath.Some? ==> forall i :: 0 <= i < |r.images| && r.images[i].used ==>
              Extract.Resolve(Paths.Parent(app.mdFilePath.value), r.images[i].rawPath.value) == r.images[i].absPath
  {
    var files := DirImages(app, disk);
    var refs := References(app, disk, html);
    Catalog.UsedEntriesResolve(files, refs, Paths.Parent(app.mdFilePath.GetOr("")));
    assert forall i :: 0 <= i < |files| ==> Paths.HasExtension(files[i]) by {
      if app.imageDirPath.Some? {
        var listed := disk.filesUnder(app.imageDirPath.value);
        forall i | 0 <= i < |files|
          ensures Paths.HasExtension(files[i])
        {
          assert files[i] in listed;
        }
      }
    }
    App(app.mdFilePath, app.imageDirPath, Catalog.FreshImages(files, refs))
  }

  /** The directories tried for a document: its path with every ".md"
      removed, then that with ".assets" appended. */
  function ImageDirCandidates(mdPath: string): (r: seq<string>)
    ensures |r| == 2 && r[1] == r[0] + ".assets"
    ensures r[0] == Strings.Join(Strings.Split(mdPath, ".md"), "")
  {
    var s := Strings.Replace(mdPath, ".md", "");
    Strings.ReplaceIsSplitJoin(mdPath, ".md", "");
    [s, s + ".assets"]
  }

  /** For "{stem}.md" with no other ".md" inside, the candidates are the stem
      and the stem with ".assets". */
  lemma CandidatesOfPlainName(stem: string)
    requires !Strings.Contains(stem, ".md")
    ensures ImageDirCandidates(stem + ".md") == [stem, stem + ".assets"]
  {
    var s := stem + ".md";
    assert Strings.OccursAt(s, ".md", |stem|);
    forall j | 0 <= j < |stem|
      ensures !Strings.OccursAt(s, ".md", j)
    {
      if j + 3 <= |stem| {
        assert s[j..j + 3] == stem[j..j + 3];
        assert !Strings.OccursAt(stem, ".md", j);
      } else {
        assert s[|stem|] == '.';
        assert s[j..j + 3][|stem| - j] == '.';
      }
    }
    assert Strings.Contains(s, ".md");
    assert Strings.IndexOf(s, ".md") == Some(|stem|);
    assert s[..|stem|] == stem && s[|stem| + 3..] == "";
    assert Strings.IndexOf("", ".md") == None;
    assert Strings.Replace("", ".md", "") == "";
    assert Strings.Replace(s, ".md", "") == stem + "" + "";
    assert ImageDirCandidates(s)[0] == stem;
  }

  /** The position of the first candidate that is an existing directory. */
  function FirstExisting(cands: seq<string>, isDir: string -> bool, from: nat): (r: Option<nat>)
    requires from <= |cands|
    ensures r.Some? ==> from <= r.value < |cands| && isDir(cands[r.value])
    ensures r.Some? ==> forall j :: from <= j < r.value ==> !isDir(cands[j])
    ensures r.None? <==> forall j :: from <= j < |cands| ==> !isDir(cands[j])
    decreases |cands| - from
  {
    if from == |cands| then None
    else if isDir(cands[from]) then Some(from)
    else FirstExisting(cands, isDir, from + 1)
  }

  /** `p` is the path of some entry of the catalog. */
  predicate Lists(images: seq<Catalog.Image>, p: string)
  {
    exists i :: 0 <= i < |images| && images[i].absPath == p
  }

  /** `p` is the path of some used entry of the catalog. */
  predicate ListsUsed(images: seq<Catalog.Image>, p: string)
  {
    exists i :: 0 <= i < |images| && images[i].absPath == p && images[i].used
  }

  /** The candidate that gets picked, if any, can be listed; the other one
      is never walked. */
  predicate CandidatesListable(disk: Disk, file: string)
  {
    match FirstExisting(ImageDirCandidates(file), disk.isDir, 0)
    case Some(k) => Listable(disk, ImageDirCandidates(file)[k])
    case None => true
  }

  /** `SelectMdFile`: remember the document; when the first candidate
      directory, or else the second, exists, choose it and refresh. When
      neither exists, the image directory and the catalog stay as they were. */
  function SelectMdFile(app: App, file: string, disk: Disk, html: string -> seq<string>): (r: App)
    requires CandidatesListable(disk, file)
    ensures r.mdFilePath == Some(file)
    ensures disk.isDir(ImageDirCandidates(file)[0]) ==> r.imageDirPath == Some(ImageDirCandidates(file)[0])
    ensures !disk.isDir(ImageDirCandidates(file)[0]) && disk.isDir(ImageDirCandidates(file)[1]) ==>
              r.imageDirPath == Some(ImageDirCandidates(file)[1])
    ensures !disk.isDir(ImageDirCandidates(file)[0]) && !disk.isDir(ImageDirCandidates(file)[1]) ==>
              r.imageDirPath == app.imageDirPath && r.images == app.images
    ensures disk.isDir(ImageDirCandidates(file)[0]) || disk.isDir(ImageDirCandidates(file)[1]) ==>
              r == Refresh(App(Some(file), r.imageDirPath, app.images), disk, html)
    ensures WellFormed(app) ==> WellFormed(r)
  {
    var cands := ImageDirCandidates(file);
    match FirstExisting(cands, disk.isDir, 0)
    case Some(k) => Refresh(App(Some(file), Some(cands[k]), app.images), disk, html)
    case None => app.(mdFilePath := Some(file))
  }

  /** `SelectImageDir`: choose the directory and refresh. */
  function SelectImageDir(app: App, dir: string, disk: Disk, html: string -> seq<string>): (r: App)
    requires Listable(disk, dir)
    ensures r.imageDirPath == Some(dir) && r.mdFilePath == app.mdFilePath
    ensures r == Refresh(app.(imageDirPath := Some(dir)), disk, html)
    ensures WellFormed(r)
    ensures forall i :: 0 <= i < |r.images| ==>
              r.images[i].absPath in disk.filesUnder(dir) && DirScan.IsImageFile(r.images[i].absPath)
  {
    var chosen := app.(imageDirPath := Some(dir));
    RefreshedFromListing(chosen, disk, html);
    Refresh(chosen, disk, html)
  }

  /** Every entry of a refreshed catalog is an image file listed under the
      chosen directory. */
  lemma RefreshedFromListing(app: App, disk: Disk, html: string -> seq<string>)
    requires app.imageDirPath.Some? && Listable(disk, app.imageDirPath.value)
    ensures forall i :: 0 <= i < |Refresh(app, disk, html).images| ==>
              && Refresh(app, disk, html).images[i].absPath in disk.filesUnder(app.imageDirPath.value)
              && DirScan.IsImageFile(Refresh(app, disk, html).images[i].absPath)
  {
    DirImagesListed(app, disk);
  }

  /** The scanned image files are listed under the chosen directory and
      pass the extension filter. */
  lemma DirImagesListed(app: App, disk: Disk)
    requires app.imageDirPath.Some? && Listable(disk, app.imageDirPath.value)
    ensures forall k :: 0 <= k < |DirImages(app, disk)| ==>
              && DirImages(app, disk)[k] in disk.filesUnder(app.imageDirPath.value)
              && DirScan.IsImageFile(DirImages(app, disk)[k])
  {
    var files := DirImages(app, disk);
    forall k | 0 <= k < |files|
      ensures files[k] in disk.filesUnder(app.imageDirPath.value) && DirScan.IsImageFile(files[k])
    {
      assert files[k] in files;
    }
  }

  /** The disk after deleting `paths`: they no longer appear in any listing. */
  function RemoveFiles(disk: Disk, paths: seq<string>): (r: Disk)
    ensures r.isDir == disk.isDir && r.contents == disk.contents
    ensures forall dir, p :: p in r.filesUnder(dir) <==> p in disk.filesUnder(dir) && p !in paths
  {
    var r := Disk(disk.isDir, dir => Seqs.Filter(disk.filesUnder(dir), p => p !in paths), disk.contents);
    forall dir
      ensures forall p :: p in r.filesUnder(dir) <==> p in disk.filesUnder(dir) && p !in paths
    {
      Seqs.FilterMembership(disk.filesUnder(dir), p => p !in paths);
    }
    r
  }

  /** Deleting files keeps every listable directory listable. */
  lemma RemoveKeepsListable(disk: Disk, paths: seq<string>)
    ensures forall dir :: Listable(disk, dir) ==> Listable(RemoveFiles(disk, paths), dir)
  {
    forall dir | Listable(disk, dir)
      ensures Listable(RemoveFiles(disk, paths), dir)
    {
      var after := RemoveFiles(disk, paths).filesUnder(dir);
      forall k | 0 <= k < |after|
        ensures Paths.HasExtension(after[k])
      {
        assert after[k] in disk.filesUnder(dir);
      }
    }
  }

  /** `RemoveImages`: with nothing to remove, or without confirmation,
      nothing changes; otherwise the unused files are deleted and the
      catalog is refreshed. */
  function RemoveImages(app: App, disk: Disk, html: string -> seq<string>, confirmed: bool): (r: (App, Disk))
    requires |Catalog.FindRemoveImages(app.images)| > 0 && confirmed && app.imageDirPath.Some? ==>
               Listable(disk, app.imageDirPath.value)
    ensures |Catalog.FindRemoveImages(app.images)| == 0 || !confirmed ==> r == (app, disk)
    ensures |Catalog.FindRemoveImages(app.images)| > 0 && confirmed ==>
              r.1 == RemoveFiles(disk, Catalog.FindRemoveImages(app.images)) && r.0 == Refresh(app, r.1, html)
    ensures WellFormed(app) ==> WellFormed(r.0)
  {
    var doomed := Catalog.FindRemoveImages(app.images);
    if |doomed| == 0 || !confirmed then (app, disk)
    else
      var after := RemoveFiles(disk, doomed);
      RemoveKeepsListable(disk, doomed);
      (Refresh(app, after, html), after)
  }

  /** After a confirmed removal from a freshly built catalog, the catalog
      holds exactly the paths that were used, and nothing is left to remove. */
  lemma RemovalLeavesUsed(app: App, disk: Disk, html: string -> seq<string>)
    requires app.imageDirPath.Some? ==> Listable(disk, app.imageDirPath.value)
    requires app.images == Refresh(app, disk, html).images
    ensures forall p :: Lists(RemoveImages(app, disk, html, true).0.images, p) <==> ListsUsed(app.images, p)
    ensures |Catalog.FindRemoveImages(RemoveImages(app, disk, html, true).0.images)| == 0
  {
    var after := RemoveImages(app, disk, html, true).0.images;
    if |Catalog.FindRemoveImages(app.images)| == 0 {
      AllUsedListsUsed(app.images);
    } else {
      RemovalRefreshes(app, disk, html);
    }
    Catalog.RemovalMembership(after);
  }

  /** In a catalog with nothing to remove, every listed path is a used one. */
  lemma AllUsedListsUsed(images: seq<Catalog.Image>)
    requires |Catalog.FindRemoveImages(images)| == 0
    ensures forall p :: Lists(images, p) <==> ListsUsed(images, p)
    ensures forall i :: 0 <= i < |images| ==> images[i].used
  {
    Catalog.RemovalMembership(images);
    forall p | Lists(images, p)
      ensures ListsUsed(images, p)
    {
      var i :| 0 <= i < |images| && images[i].absPath == p;
      assert images[i].used;
    }
  }

  /** A confirmed removal that deletes something leaves, after the refresh,
      exactly the used paths, every one of them used. */
  lemma RemovalRefreshes(app: App, disk: Disk, html: string -> seq<string>)
    requires app.imageDirPath.Some? ==> Listable(disk, app.imageDirPath.value)
    requires app.images == Refresh(app, disk, html).images
    requires |Catalog.FindRemoveImages(app.images)| > 0
    ensures forall p :: Lists(RemoveImages(app, disk, html, true).0.images, p) <==> ListsUsed(app.images, p)
    ensures forall i :: 0 <= i < |RemoveImages(app, disk, html, true).0.images| ==>
              RemoveImages(app, disk, html, true).0.images[i].used
  {
    var doomed := Catalog.FindRemoveImages(app.images);
    Catalog.RemovalMembership(app.images);
    var d := RemoveFiles(disk, doomed);
    var refs := References(app, disk, html);
    assert References(app, d, html) == refs;
    assert app.imageDirPath.Some? by {
      assert |app.images| > 0;
    }
    RemoveKeepsListable(disk, doomed);
    RefreshPaths(app, disk, html);
    RefreshPaths(app, d, html);
    KeptImages(disk, doomed, app.imageDirPath.value);
    RemovalKeepsUsed(app.images, Refresh(app, d, html).images, DirImages(app, disk), DirImages(app, d),
                     doomed, Catalog.ResolvedPaths(refs));
  }

  /** The path-level argument of a removal: the catalog before lists the
      files, used exactly when resolved; the doomed paths are its unused
      ones; the catalog after lists the files that were kept, used exactly
      when resolved. Then the catalog after lists exactly the used paths. */
  lemma RemovalKeepsUsed(before: seq<Catalog.Image>, after: seq<Catalog.Image>, files: seq<string>,
                         kept: seq<string>, doomed: seq<string>, resolved: set<string>)
    requires forall p :: ListsUsed(before, p) <==> p in files && p in resolved
    requires forall p :: ListsUnused(before, p) <==> p in files && p !in resolved
    requires forall p :: p in doomed <==> ListsUnused(before, p)
    requires forall p :: Lists(after, p) <==> p in kept
    requires forall p :: p in kept <==> p in files && p !in doomed
    requires forall i :: 0 <= i < |after| ==> (after[i].used <==> after[i].absPath in resolved)
    ensures forall p :: Lists(after, p) <==> ListsUsed(before, p)
    ensures forall i :: 0 <= i < |after| ==> after[i].used
  {
    forall i | 0 <= i < |after|
      ensures after[i].used
    {
      assert Lists(after, after[i].absPath);
    }
  }

  /** `p` is the path of some unused entry of the catalog. */
  predicate ListsUnused(images: seq<Catalog.Image>, p: string)
  {
    exists i :: 0 <= i < |images| && images[i].absPath == p && !images[i].used
  }

  /** The paths a refreshed catalog lists, uses and leaves unused: the image
      files under the directory, split by whether a reference resolves to them. */
  lemma RefreshPaths(app: App, disk: Disk, html: string -> seq<string>)
    requires app.imageDirPath.Some? ==> Listable(disk, app.imageDirPath.value)
    ensures forall p :: Lists(Refresh(app, disk, html).images, p) <==> p in DirImages(app, disk)
    ensures forall p :: ListsUsed(Refresh(app, disk, html).images, p) <==>
              p in DirImages(app, disk) && p in Catalog.ResolvedPaths(References(app, disk, html))
    ensures forall p :: ListsUnused(Refresh(app, disk, html).images, p) <==>
              p in DirImages(app, disk) && p !in Catalog.ResolvedPaths(References(app, disk, html))
  {
    var images := Refresh(app, disk, html).images;
    var files := DirImages(app, disk);
    forall p | p in files
      ensures Lists(images, p)
    {
      var k :| 0 <= k < |files| && files[k] == p;
      assert images[k].absPath == p;
    }
  }

  /** After deleting `doomed`, the image files under `dir` are the earlier
      ones that were not deleted. */
  lemma KeptImages(disk: Disk, doomed: seq<string>, dir: string)
    requires Listable(disk, dir)
    ensures Listable(RemoveFiles(disk, doomed), dir)
    ensures forall p :: p in DirScan.FindDirImages(RemoveFiles(disk, doomed).filesUnder(dir)) <==>
              p in DirScan.FindDirImages(disk.filesUnder(dir)) && p !in doomed
  {
    RemoveKeepsListable(disk, doomed);
  }

  /** `RenameImages`: with no used image, or without confirmation, nothing
      happens; otherwise the used images are numbered from 1 in catalog
      order and renamed, the last number first. */
  method RenameUsed(app: App, disk: Disk, confirmed: bool) returns (out: Option<Rename.Outcome>)
    requires WellFormed(app)
    ensures out.None? <==> !confirmed || forall i :: 0 <= i < |app.images| ==> !app.images[i].used
    ensures out.Some? ==> app.mdFilePath.Some?
    ensures out.Some? ==> |out.value.copies| == |Seqs.Positions(app.images, Catalog.IsUsed)|
    ensures out.Some? ==> forall j :: 0 <= j < |out.value.copies| ==> out.value.copies[j].index == |out.value.copies| - j
    ensures out.Some? ==> out.value.copies == Seqs.MapReverse(Rename.NumberUsed(app.images), Rename.CopyFor)
    ensures out.Some? ==>
              out.value.text == Rename.RewriteFrom(disk.contents(app.mdFilePath.value), Rename.NumberUsed(app.images), 0)
    ensures out.Some? ==> out.value.newMdPath == Rename.NewMdPath(app.mdFilePath.value)
  {
    var ns := Rename.NumberUsed(app.images);
    NumberedUsed(app);
    if |ns| == 0 || !confirmed {
      return None;
    }
    var md := app.mdFilePath.value;
    var o := Rename.RenameImages(ns, disk.contents(md), md);
    Rename.CopiesNumbered(app.images, o.copies);
    out := Some(o);
  }

  /** What renaming needs of a well-formed catalog: the numbered images are
      exactly the used ones, each has a reference text and an extension, and
      a used image means a document was chosen. */
  lemma NumberedUsed(app: App)
    requires WellFormed(app)
    ensures |Rename.NumberUsed(app.images)| == 0 <==> forall i :: 0 <= i < |app.images| ==> !app.images[i].used
    ensures |Rename.NumberUsed(app.images)| > 0 ==> app.mdFilePath.Some?
    ensures Rename.Renamable(Rename.NumberUsed(app.images))
  {
    var ns := Rename.NumberUsed(app.images);
    var idx := Seqs.Positions(app.images, Catalog.IsUsed);
    Seqs.PositionsEmpty(app.images, Catalog.IsUsed);
    if |ns| > 0 {
      assert app.images[idx[0]].used;
    }
    forall j | 0 <= j < |ns|
      ensures Rename.Referenced(ns[j].image) && Paths.HasExtension(ns[j].image.absPath)
    {
      assert Catalog.IsUsed(app.images[idx[j]]);
    }
  }
}

=== FILE: strings.dfy ===
/** Text operations of Rust's `str` that the program relies on: substring
    search, `replace`, `split`, `[String]::join` and lower-casing. */
module Strings {
  import opened Wrappers

  /** `pat` occurs in `s` starting at index `i`. */
  predicate OccursAt(s: string, pat: string, i: int)
  {
    0 <= i && i + |pat| <= |s| && s[i..i + |pat|] == pat
  }

  predicate Contains(s: string, pat: string)
  {
    exists i :: 0 <= i <= |s| && OccursAt(s, pat, i)
  }

  /** The first occurrence of `pat` in `s` at or after `from`. */
  function IndexFrom(s: string, pat: string, from: nat): (r: Option<nat>)
    ensures r.Some? ==> from <= r.value && OccursAt(s, pat, r.value)
    ensures r.Some? ==> forall j :: from <= j < r.value ==> !OccursAt(s, pat, j)
    ensures r.None? ==> forall j :: from <= j ==> !OccursAt(s, pat, j)
    decreases |s| - from
  {
    if from + |pat| > |s| then None
    else if s[from..from + |pat|] == pat then Some(from)
    else IndexFrom(s, pat, from + 1)
  }

  /** The first occurrence of `pat` in `s` (`str::find`). */
  function IndexOf(s: string, pat: string): (r: Option<nat>)
    ensures r.Some? ==> OccursAt(s, pat, r.value) && forall j :: 0 <= j < r.value ==> !OccursAt(s, pat, j)
    ensures r.None? <==> !Contains(s, pat)
  {
    IndexFrom(s, pat, 0)
  }

  /** Rust's `str::replace` with an empty pattern: `to` goes in at every
      character boundary, both ends included. */
  function Interleave(s: string, to: string): (r: string)
    ensures |to| > 0 ==> |r| > |s|
  {
    if |s| == 0 then to
    else to + [s[0]] + Interleave(s[1..], to)
  }

  /** Rust's `str::replace`: every non-overlapping occurrence of `from`,
      found scanning left to right, is replaced by `to`. */
  function Replace(s: string, from: string, to: string): string
    decreases |s|
  {
    if |from| == 0 then Interleave(s, to)
    else
      match IndexOf(s, from)
      case None => s
      case Some(i) => s[..i] + to + Replace(s[i + |from|..], from, to)
  }

  /** Rust's `str::split` on a non-empty separator: the pieces between the
      successive leftmost non-overlapping occurrences of `sep`. */
  function Split(s: string, sep: string): (pieces: seq<string>)
    requires |sep| > 0
    ensures |pieces| > 0
    decreases |s|
  {
    match IndexOf(s, sep)
    case None => [s]
    case Some(i) => [s[..i]] + Split(s[i + |sep|..], sep)
  }

  /** Rust's `[String]::join`. */
  function Join(parts: seq<string>, sep: string): string
    decreases |parts|
  {
    if |parts| == 0 then []
    else if |parts| == 1 then parts[0]
    else parts[0] + sep + Join(parts[1..], sep)
  }

  /** ASCII lower-casing of one character. */
  function LowerChar(c: char): char
  {
    if 'A' <= c <= 'Z' then (c as int - 'A' as int + 'a' as int) as char else c
  }

  /** Lower-casing (`str::to_lowercase`) restricted to ASCII letters. */
  function ToLower(s: string): (r: string)
    ensures |r| == |s|
    ensures forall i :: 0 <= i < |s| ==> r[i] == LowerChar(s[i])
  {
    seq(|s|, i requires 0 <= i < |s| => LowerChar(s[i]))
  }

  /** The text before the first occurrence holds no occurrence itself. */
  lemma PrefixBeforeFirstIsFree(s: string, pat: string, i: nat)
    requires |pat| > 0
    requires OccursAt(s, pat, i)
    requires forall j :: 0 <= j < i ==> !OccursAt(s, pat, j)
    ensures !Contains(s[..i], pat)
  {
    forall j | OccursAt(s[..i], pat, j)
      ensures false
    {
      assert s[..i][j..j + |pat|] == s[j..j + |pat|];
      assert OccursAt(s, pat, j);
    }
  }

  /** Splitting at the first occurrence: the text before it, then the
      pieces of the text after it. */
  lemma SplitAt(s: string, sep: string)
    requires |sep| > 0 && IndexOf(s, sep).Some?
    ensures var i := IndexOf(s, sep).value;
            Split(s, sep) == [s[..i]] + Split(s[i + |sep|..], sep)
  {
  }

  /** No piece of a split holds the separator. */
  lemma {:induction false} SplitPiecesAvoid(s: string, sep: string)
    requires |sep| > 0
    ensures forall k :: 0 <= k < |Split(s, sep)| ==> !Contains(Split(s, sep)[k], sep)
    decreases |s|
  {
    if IndexOf(s, sep).Some? {
      var rest := s[IndexOf(s, sep).value + |sep|..];
      SplitPiecesAvoid(rest, sep);
      PrefixBeforeFirstIsFree(s, sep, IndexOf(s, sep).value);
      SplitAt(s, sep);
      var pieces := [s[..IndexOf(s, sep).value]] + Split(rest, sep);
      forall k | 1 <= k < |pieces|
        ensures !Contains(pieces[k], sep)
      {
        assert pieces[k] == Split(rest, sep)[k - 1];
      }
    }
  }

  /** Joining two non-empty lists equals joining each and gluing with `sep`. */
  lemma {:induction false} JoinAppend(a: seq<string>, b: seq<string>, sep: string)
    requires |a| > 0 && |b| > 0
    ensures Join(a + b, sep) == Join(a, sep) + sep + Join(b, sep)
    decreases |a|
  {
    if |a| == 1 {
      assert (a + b)[1..] == b;
    } else {
      assert (a + b)[1..] == a[1..] + b;
      JoinAppend(a[1..], b, sep);
    }
  }

  /** `replace` is `split` followed by `join` with the replacement. */
  lemma {:induction false} ReplaceIsSplitJoin(s: string, from: string, to: string)
    requires |from| > 0
    ensures Replace(s, from, to) == Join(Split(s, from), to)
    decreases |s|
  {
    if IndexOf(s, from).Some? {
      var rest := s[IndexOf(s, from).value + |from|..];
      ReplaceIsSplitJoin(rest, from, to);
      ReplaceAt(s, from, to);
      SplitAt(s, from);
      JoinCons(s[..IndexOf(s, from).value], Split(rest, from), to);
    }
  }

  /** Replacing at the first occurrence: the text before it, the
      replacement, then the replaced text after it. */
  lemma ReplaceAt(s: string, from: string, to: string)
    requires |from| > 0 && IndexOf(s, from).Some?
    ensures var i := IndexOf(s, from).value;
            Replace(s, from, to) == s[..i] + to + Replace(s[i + |from|..], from, to)
  {
  }

  /** Joining a list with a first element. */
  lemma JoinCons(x: string, tail: seq<string>, sep: string)
    requires |tail| > 0
    ensures Join([x] + tail, sep) == x + sep + Join(tail, sep)
  {
    assert ([x] + tail)[1..] == tail;
  }

  /** Joining the pieces of a split with the same separator restores the text. */
  lemma {:induction false} SplitJoinRoundTrip(s: string, sep: string)
    requires |sep| > 0
    ensures Join(Split(s, sep), sep) == s
    decreases |s|
  {
    if IndexOf(s, sep).Some? {
      var rest := s[IndexOf(s, sep).value + |sep|..];
      SplitJoinRoundTrip(rest, sep);
      SplitAt(s, sep);
      JoinCons(s[..IndexOf(s, sep).value], Split(rest, sep), sep);
      assert s == s[..IndexOf(s, sep).value] + sep + rest;
    }
  }

  /** Replacing a pattern by itself changes nothing, for any pattern. */
  lemma ReplaceByItself(s: string, pat: string)
    ensures Replace(s, pat, pat) == s
  {
    if |pat| == 0 {
      InterleaveEmpty(s);
    } else {
      ReplaceIsSplitJoin(s, pat, pat);
      SplitJoinRoundTrip(s, pat);
    }
  }

  lemma {:induction false} InterleaveEmpty(s: string)
    ensures Interleave(s, []) == s
    decreases |s|
  {
    if |s| > 0 {
      InterleaveEmpty(s[1..]);
    }
  }

  /** A text that does not contain the pattern comes back unchanged. */
  lemma ReplaceAbsent(s: string, from: string, to: string)
    requires !Contains(s, from)
    ensures Replace(s, from, to) == s
  {
    assert |from| > 0 by {
      if |from| == 0 {
        assert OccursAt(s, from, 0);
      }
    }
  }

  /** The pieces of a split are cut at leftmost occurrences: the separator
      that follows each piece is the first occurrence in piece + separator. */
  lemma {:induction false} SplitPiecesAreLeftmost(s: string, sep: string)
    requires |sep| > 0
    ensures forall k :: 0 <= k < |Split(s, sep)| - 1 ==>
              IndexOf(Split(s, sep)[k] + sep, sep) == Some(|Split(s, sep)[k]|)
    decreases |s|
  {
    if IndexOf(s, sep).Some? {
      var rest := s[IndexOf(s, sep).value + |sep|..];
      SplitPiecesAreLeftmost(rest, sep);
      FirstOccurrenceKept(s, sep, IndexOf(s, sep).value);
      var tail := Split(rest, sep);
      var pieces := [s[..IndexOf(s, sep).value]] + tail;
      SplitAt(s, sep);
      forall k | 1 <= k < |pieces| - 1
        ensures IndexOf(pieces[k] + sep, sep) == Some(|pieces[k]|)
      {
        assert pieces[k] == tail[k - 1];
      }
    }
  }

  /** Cutting the text right after its first occurrence keeps that occurrence first. */
  lemma FirstOccurrenceKept(s: string, sep: string, i: nat)
    requires OccursAt(s, sep, i)
    requires forall j :: 0 <= j < i ==> !OccursAt(s, sep, j)
    ensures IndexOf(s[..i] + sep, sep) == Some(i)
  {
    var head := s[..i] + sep;
    assert head == s[..i + |sep|];
    forall j | 0 <= j < i
      ensures !OccursAt(head, sep, j)
    {
      if OccursAt(head, sep, j) {
        assert head[j..j + |sep|] == s[j..j + |sep|];
        assert OccursAt(s, sep, j);
      }
    }
    assert OccursAt(head, sep, i);
  }

  /** A pattern one of whose characters is missing from the text does not occur in it. */
  lemma AbsentByChar(s: string, pat: string, k: nat)
    requires k < |pat| && pat[k] !in s
    ensures !Contains(s, pat)
  {
    forall i | 0 <= i <= |s|
      ensures !OccursAt(s, pat, i)
    {
      if i + |pat| <= |s| {
        assert s[i..i + |pat|][k] == s[i + k];
      }
    }
  }

  /** An occurrence at `i` is the first when the pattern's first character
      does not appear before `i`. */
  lemma FirstByHead(s: string, pat: string, i: nat)
    requires |pat| > 0 && OccursAt(s, pat, i)
    requires forall j :: 0 <= j < i ==> s[j] != pat[0]
    ensures IndexOf(s, pat) == Some(i)
  {
    forall j | 0 <= j < i
      ensures !OccursAt(s, pat, j)
    {
      if j + |pat| <= |s| {
        assert s[j..j + |pat|][0] == s[j];
      }
    }
  }
}

=== FILE: wrappers.dfy ===
/** The optional value used wherever the program calls `Option::is_some`,
    `HashMap::get` or a `Path` accessor that may come back empty. */
module Wrappers {

  datatype Option<+T> = None | Some(value: T)
  {
    /** The wrapped value, or `default` when there is none. */
    function GetOr(default: T): T
    {
      match this
      case Some(v) => v
      case None => default
    }
  }
}
